=== FILE: README.md ===
# monad-breakout: the relayer queue and the game rules, in Dafny

monad-breakout is a Breakout game whose brick hits are recorded on a chain
through a gas-less relayer. This project models the core of that system and
proves properties of the model.

- **The relayer queue** (`services/transactionQueue/queue.ts`).
  - Callers enqueue `(playerAddress, action)`. Each request gets a `pending`
    history record with the next sequential id.
  - A FIFO of work items is drained one item at a time behind the
    `isProcessing` flag.
  - Nonces come from a tracker that adopts the chain's pending count once and
    then counts up locally.
  - A "Nonce too low" rejection resets the tracker and retries exactly once.
  - Each item ends `completed` with a hash or `failed` with an error.
  - The module state is one `Relayer` value. Three transitions act on it:
    - `Enqueue` is `addToQueue`;
    - `Drain` is `processQueue` up to and including `queue.shift()`;
    - `Finish` is the rest of `processQueue` for the item in flight, followed
      by the `finally` block.
  - The chain is an oracle. For each attempt it supplies the pending-count
    answer and the outcome of the contract write.
- **The history view** (`components/TransactionList.tsx`): the `breakBrick`
  filter, the id-deduplicating reduction, the newest-first sort, the
  statistics, and the status label.
- **Bricks** (`createBricks.ts`, and the position loop of `drawBricks.ts`):
  - grid construction, with `Math.random` supplied as draws;
  - ids in column-major order;
  - hit caps and colours;
  - the screen layout of standing bricks.
- **Brick collisions** (`collisionDetection` in `BreakoutGame.tsx`): one scan
  over the grid that registers hits, breaks bricks, scores, requests one relay
  per hit, and decides whether the level is complete. The same file supplies
  the paddle-width formula and ball removal / game over.
- **Power-ups** (`powerUps.ts`): creation, falling, the catch by the paddle,
  activation and deactivation.
- **Particles** (`createParticles.ts`, `drawParticles.ts`): bursts, plus the
  per-frame aging loop with its `splice(i, 1); i--` step, written as an
  imperative loop with invariants.

Each file is one module:

- `wrappers.dfy`, `text.dfy`: helpers.
- `records.dfy`, `nonce_tracker.dfy`, `executor.dfy`, `relay_queue.dfy`: the
  relayer.
- `transaction_view.dfy`, `history_display.dfy`: the view.
- `shapes.dfy`, `bricks.dfy`, `brick_layout.dfy`, `brick_collision.dfy`,
  `game_rules.dfy`, `power_ups.dfy`, `particles.dfy`: the game.

Modelling choices:

- Screen coordinates are JavaScript numbers, modelled as exact reals.
- An unset environment variable is the empty string; both are falsy in the
  source.
- A record's `action` is kept as the string the caller sent, because nothing
  on the way in restricts it to the two names. The "Invalid action" path is
  therefore reachable.

## Model

| member | source | states |
|---|---|---|
| Records.FindIndex | packages/nextjs/services/transactionQueue/queue.ts:72 | `findIndex`: none exactly when no record has the id; otherwise the first index holding it |
| Records.Merge | packages/nextjs/services/transactionQueue/queue.ts:74 | the spread update: every field the patch carries takes the patch's value, every other field is kept, id, player and action never change, and an empty patch changes nothing |
| Records.UpdateTransaction | packages/nextjs/services/transactionQueue/queue.ts:71-76 | the length never changes; records with other ids are unchanged; ids are unchanged; an unknown id is a no-op; with unique ids the matching record is the merge |
| Records.NewRecord | packages/nextjs/services/transactionQueue/queue.ts:152 | the appended record is pending with no hash and no error, and carries the given id, player and action |
| Records.Append | packages/nextjs/services/transactionQueue/queue.ts:151-152 | exactly one record is appended after the unchanged log, with id `length + 1`; a log whose k-th record has id k+1 keeps that shape |
| Records.SequentialIdsAreUnique | packages/nextjs/services/transactionQueue/queue.ts:151 | ids of the form k+1 at position k are pairwise distinct |
| Text.ContainsIffOccurs | packages/nextjs/services/transactionQueue/queue.ts:127 | `includes` holds exactly when the substring occurs at some index |
| NonceTracker.Next | packages/nextjs/services/transactionQueue/queue.ts:60-67 | a known tracker yields previous + 1 without asking the chain; an unknown one adopts the chain's pending count, or propagates the query's failure |
| NonceTracker.NextKeepsSound | packages/nextjs/services/transactionQueue/queue.ts:58-67 | every `getNonce` keeps the draw log consecutive and the tracker equal to the last nonce drawn |
| NonceTracker.ResetKeepsSound | packages/nextjs/services/transactionQueue/queue.ts:129 | setting `currentNonce` to null keeps the tracker sound |
| NonceTracker.ConsecutiveRun | packages/nextjs/services/transactionQueue/queue.ts:60-67 | between resets the issued nonces are consecutive: j - i draws later, the nonce is exactly j - i higher |
| Executor.SendTransaction | packages/nextjs/services/transactionQueue/queue.ts:104-120 | exactly the nonce `getNonce` issues is drawn, and a failed query throws its message with nothing drawn; the nonce is sent only for `breakBrick`/`startGame`; an accepted write gives its hash and a rejected one throws the chain's message; other actions throw "Invalid action" after the draw |
| Executor.Execute | packages/nextjs/services/transactionQueue/queue.ts:84-139 | missing configuration fails with "Relayer configuration missing" before any draw; at most one reset, exactly when the first attempt failed with "Nonce too low"; after a reset the retry's nonce is adopted afresh; success means a nonce was sent and the tracker holds it; a first write that succeeds resolves with its hash, a first failure other than a stale nonce rejects with its message, and after a reset the retry's hash or message settles the promise; the nonces drawn, the nonces written and the tracker left behind are exactly the first attempt's, followed by the retry's when there was a reset |
| Executor.SendKeepsSound | packages/nextjs/services/transactionQueue/queue.ts:104-105 | one attempt keeps the nonce log consecutive and the tracker on its last entry |
| Executor.ExecuteKeepsNonceSound | packages/nextjs/services/transactionQueue/queue.ts:122-135 | whichever path the item takes, including the reset and retry, the nonce log stays consecutive and the tracker tracks it |
| Executor.InvalidActionIsNotStale | packages/nextjs/services/transactionQueue/queue.ts:116-127 | the "Invalid action" message does not contain "Nonce too low", so it is never retried |
| Executor.UnsupportedActionFails | packages/nextjs/services/transactionQueue/queue.ts:105-117 | an unknown action draws one nonce, sends nothing, is not retried, and fails with "Invalid action" |
| Executor.StaleNonceRetrySucceeds | packages/nextjs/services/transactionQueue/queue.ts:125-131 | a stale-nonce rejection followed by an accepted retry succeeds after one reset, with the second write at the chain's fresh count |
| RelayQueue.Drain | packages/nextjs/services/transactionQueue/queue.ts:78-82 | a no-op while processing or with an empty queue; otherwise it sets the flag, takes the head as the item in flight and logs its start |
| RelayQueue.Enqueue | packages/nextjs/services/transactionQueue/queue.ts:147-158 | appends exactly one pending record with id `length + 1` and leaves earlier records, the nonce and the settlements alone |
| RelayQueue.Finish | packages/nextjs/services/transactionQueue/queue.ts:122-144 | with an item in flight, exactly one settlement for that id is appended, carrying the outcome the executor reaches on the chain's replies; the nonce tracker, the nonce log and the sent nonces move exactly as that execution says; the flag stays set exactly when more work was queued; no record is added or removed |
| RelayQueue.Settle | packages/nextjs/services/transactionQueue/queue.ts:122-144 | the `then`/`catch` and `finally` bookkeeping; its contract is carried by `SettleRecords` (only the item's own record changes, by the outcome's patch) and `SettleValid` (records mirror settlements, the flag is clear) |
| RelayQueue.GetTransactions | packages/nextjs/services/transactionQueue/queue.ts:160-162 | an element-wise equal copy; in a reachable state the k-th entry has id k+1 |
| RelayQueue.InitValid | packages/nextjs/services/transactionQueue/queue.ts:24-69 | the initial module state (empty queue and log, idle, no nonce) satisfies every invariant |
| RelayQueue.EnqueueValid | packages/nextjs/services/transactionQueue/queue.ts:147-158 | enqueueing preserves the invariants: sequential ids, FIFO starts, the queue as the unstarted suffix, single flight, ordered settlements, sound nonce log |
| RelayQueue.DrainValid | packages/nextjs/services/transactionQueue/queue.ts:78-82 | a drain attempt restores "nothing waits while idle" |
| RelayQueue.SettleRecords | packages/nextjs/services/transactionQueue/queue.ts:111-138 | settling the item in flight updates only its own record, by the outcome's patch |
| RelayQueue.SettleValid | packages/nextjs/services/transactionQueue/queue.ts:136-141 | after settling, the records mirror the settlements and the flag is clear |
| RelayQueue.FinishValid | packages/nextjs/services/transactionQueue/queue.ts:122-144 | finishing the item in flight and draining again preserves the invariants |
| RelayQueue.StepValid | packages/nextjs/services/transactionQueue/queue.ts:78-158 | any enqueue or completion preserves the invariants |
| RelayQueue.RunValid | packages/nextjs/services/transactionQueue/queue.ts:78-158 | every reachable state satisfies the invariants: at most one item in flight, FIFO starts, ids 1..n in call order, consecutive nonces between resets |
| RelayQueue.StepProgress | packages/nextjs/services/transactionQueue/queue.ts:71-76 | one step removes nothing, and each record stays as it is or leaves pending |
| RelayQueue.RunProgress | packages/nextjs/services/transactionQueue/queue.ts:111-138 | over any run, records only move pending to completed or pending to failed, and the logs only grow |
| RelayQueue.SettlesExactlyOnce | packages/nextjs/services/transactionQueue/queue.ts:122-143 | no promise settles twice, and every started item other than the one in flight has settled |
| RelayQueue.TwoRequestsComplete | packages/nextjs/services/transactionQueue/queue.ts:147-158 | two accepted requests get ids 1 and 2, complete in call order, and use nonces 5 and 6 from one adopted count |
| RelayQueue.MissingConfigFails | packages/nextjs/services/transactionQueue/queue.ts:85-86 | with configuration missing, the request's record fails with the configuration message and nothing is drawn or sent |
| TransactionView.BreakBrickOnly | packages/nextjs/components/TransactionList.tsx:13 | exactly the `breakBrick` records survive the filter |
| TransactionView.BreakBrickOnlyKeepsOrder | packages/nextjs/components/TransactionList.tsx:13 | the filter keeps the input order: it maps concatenation to concatenation, and a single record is kept exactly when its action is `breakBrick` |
| TransactionView.WithoutId | packages/nextjs/components/TransactionList.tsx:20 | exactly the entries with a different id remain |
| TransactionView.DedupStep | packages/nextjs/components/TransactionList.tsx:16-30 | a hashed record replaces every entry with its id and goes last; an unhashed one is appended only if its id is new; unique ids are kept |
| TransactionView.Dedup | packages/nextjs/components/TransactionList.tsx:16-30 | the left fold of the reducer keeps ids pairwise distinct; the rest of its contract (exactly the input's ids, and per id the record `Pick` chooses) is carried by `DedupMeetsPick` |
| TransactionView.DedupMeetsPick | packages/nextjs/components/TransactionList.tsx:16-30 | the reduction keeps pairwise-distinct ids, exactly the input's ids, and per id the last hashed record or else the first record |
| TransactionView.DedupKeepsInputs | packages/nextjs/components/TransactionList.tsx:16-30 | every kept entry is one of the input records |
| TransactionView.Insert | packages/nextjs/components/TransactionList.tsx:33 | inserting adds exactly the one element, as a multiset |
| TransactionView.InsertKeepsOrder | packages/nextjs/components/TransactionList.tsx:33 | insertion keeps the list newest first, and strictly so for a fresh id |
| TransactionView.SortNewestFirst | packages/nextjs/components/TransactionList.tsx:33 | the sort is a permutation of its input |
| TransactionView.SortIsOrdered | packages/nextjs/components/TransactionList.tsx:33 | the sorted list is newest first, and strictly decreasing in id when ids are distinct |
| TransactionView.View | packages/nextjs/components/TransactionList.tsx:12-33 | the pure part of `fetchTransactions`: filter, reduce, sort; its contract is carried by `ViewSpec` |
| TransactionView.ViewSpec | packages/nextjs/components/TransactionList.tsx:12-33 | the view shows each `breakBrick` id once, by strictly decreasing id, each entry an input record chosen as the reduction rule says |
| TransactionView.CountsPartition | packages/nextjs/components/TransactionList.tsx:48-54 | every record is unhashed, or hashed with exactly one status |
| TransactionView.CountWhereIsPositions | packages/nextjs/components/TransactionList.tsx:49-52 | counting the entries that meet a criterion one at a time gives the number of positions whose entry meets it |
| TransactionView.ComputeStats | packages/nextjs/components/TransactionList.tsx:48-54 | total is the length; pending is the number of positions without a hash, completed and failed the number with a hash and that status; their sum reaches the total exactly when no hashed record is still pending |
| TransactionView.StatusLabel | packages/nextjs/components/TransactionList.tsx:101-108 | the label is "pending" exactly when the hash is absent or the status is pending; otherwise it is the status |
| HistoryDisplay.HashOnlyWhenCompleted | packages/nextjs/services/transactionQueue/queue.ts:111-138 | in any reachable relayer state a record has a hash only once completed, and a failed record never has one |
| HistoryDisplay.NoHashedFailures | packages/nextjs/components/TransactionList.tsx:52 | with no hashed failures, the failed count is zero |
| HistoryDisplay.AsWrittenHidesFailures | packages/nextjs/components/TransactionList.tsx:50-52 | as written, the view of any relayer history counts no failures and labels nothing "failed" |
| HistoryDisplay.FailedRequestShownPending | packages/nextjs/components/TransactionList.tsx:101-108 | a breakBrick request that failed on missing configuration is counted and labelled as pending; the status-based versions say failed |
| HistoryDisplay.StatsByStatus | packages/nextjs/components/TransactionList.tsx:48-54 | the corrected statistics: each field is the number of positions whose record has that status, and pending + completed + failed = total |
| HistoryDisplay.LabelByStatus | packages/nextjs/components/TransactionList.tsx:101-108 | the corrected label says "failed" exactly for failed records and "pending" exactly for pending ones |
| HistoryDisplay.CountsAgreeOnRelayerRecords | packages/nextjs/components/TransactionList.tsx:50-52 | on records hashed exactly when completed, the hash-based pending count is pending plus failed by status |
| HistoryDisplay.ByStatusRefinesAsWritten | packages/nextjs/components/TransactionList.tsx:48-54 | on relayer histories the corrected stats agree on completed and split the as-written pending into pending and failed |
| Bricks.HitCap | packages/nextjs/components/game/game_utils/createBricks.ts:18-19 | the cap is `min(1 + floor(level/2), 5)`: at most 5, at least 1 for level >= 0, 5 from level 8 on |
| Bricks.HitCapMonotone | packages/nextjs/components/game/game_utils/createBricks.ts:19 | the cap never falls as the level rises |
| Bricks.Palette | packages/nextjs/components/game/game_utils/createBricks.ts:22-28 | a colour exists exactly for hit counts 1..5 |
| Bricks.BrickHits | packages/nextjs/components/game/game_utils/createBricks.ts:37 | hits - 1 is the floor of draw * cap, so with a draw in [0,1) and cap >= 1 hits lie in 1..cap |
| Bricks.PowerUpFor | packages/nextjs/components/game/game_utils/createBricks.ts:40-41 | a power-up type is drawn exactly when the brick has a power-up; it is multi-ball exactly when the kind draw is below 0.5, wide paddle otherwise |
| Bricks.CreateBricks | packages/nextjs/components/game/game_utils/createBricks.ts:13-58 | columns x rows bricks with id c*rows+r+1, standing, unhit, at (0,0), colour from the palette, the power-up flag as drawn, a type exactly with a power-up, multi-ball exactly for a kind draw below 0.5; hits - 1 is the floor of the hit draw times the level's cap, so for level >= 0 hits lie in 1..cap |
| Bricks.BrickIdsInjective | packages/nextjs/components/game/game_utils/createBricks.ts:44-54 | different cells get different ids |
| Bricks.BrickIdsCover | packages/nextjs/components/game/game_utils/createBricks.ts:33-56 | every id in 1..columns*rows names a cell of the grid |
| BrickLayout.Place | packages/nextjs/components/game/game_utils/drawBricks.ts:19-23 | a standing brick gets its cell's position; a broken one is untouched; status, hits and id never change |
| BrickLayout.Layout | packages/nextjs/components/game/game_utils/drawBricks.ts:16-23 | same shape; only x and y change; standing bricks inside the counts get `c*(w+pad)+left`, `r*(h+pad)+top`; all other cells are unchanged |
| BrickLayout.AssignPositions | packages/nextjs/components/game/game_utils/drawBricks.ts:16-23 | the nested loop visits every cell inside the counts once and produces exactly `Layout` |
| BrickLayout.LayoutIdempotent | packages/nextjs/components/game/game_utils/drawBricks.ts:19-23 | laying out twice equals laying out once |
| BrickLayout.LaidOutBricksDisjoint | packages/nextjs/components/game/game_utils/drawBricks.ts:20-21 | with non-negative sizes and padding, laid-out standing bricks of different cells never overlap |
| BrickCollision.FirstInside | packages/nextjs/components/game/BreakoutGame.tsx:153-159 | the first ball strictly inside the brick, or none exactly when no ball is inside |
| BrickCollision.VisitBrick | packages/nextjs/components/game/BreakoutGame.tsx:148-183 | only this cell changes; a standing brick with a ball inside takes exactly one hit, otherwise it is unchanged; the flag falls for a standing brick; balls only have `dy` reversed |
| BrickCollision.VisitBalls | packages/nextjs/components/game/BreakoutGame.tsx:153-181 | for a standing brick, exactly the first ball inside it has `dy` reversed; otherwise the balls are unchanged |
| BrickCollision.VisitTurns | packages/nextjs/components/game/BreakoutGame.tsx:153-181 | ball i is reversed once by a visit exactly when it is the first ball inside the standing brick, and left alone otherwise |
| BrickCollision.VisitAccounted | packages/nextjs/components/game/BreakoutGame.tsx:160-178 | one relay per hit, score += hitsRequired per break, one burst per break, one fresh power-up per break of a brick that carries one |
| BrickCollision.ScanRowsEffect | packages/nextjs/components/game/BreakoutGame.tsx:147-184 | the row loop: each visited cell ends as one hit or untouched, judged on the starting bricks and balls; the flag falls exactly when a visited cell was standing; each ball ends with `dy` reversed once per standing cell whose visit stopped at it |
| BrickCollision.ScanRowsTurns | packages/nextjs/components/game/BreakoutGame.tsx:147-184 | one ball through the row loop: it is reversed once for every standing brick of the visited cells for which it is the first ball inside |
| BrickCollision.ScanColumnsEffect | packages/nextjs/components/game/BreakoutGame.tsx:146-185 | the column loop: the same, for every cell of the scanned columns |
| BrickCollision.ScanColumnsTurns | packages/nextjs/components/game/BreakoutGame.tsx:146-185 | one ball through the column loop: reversed once per standing brick, over all scanned cells, for which it is the first ball inside |
| BrickCollision.CollisionDetection | packages/nextjs/components/game/BreakoutGame.tsx:144-195 | `collisionDetection` itself; its contract is carried by `CollisionDetectionEffect` |
| BrickCollision.CollisionDetectionEffect | packages/nextjs/components/game/BreakoutGame.tsx:144-195 | at most one hit per standing brick; broken bricks skipped; relays, score, bursts and power-ups balance against hits and breaks; ball i ends with `dy` reversed as many times as there were standing bricks it was the first ball inside; the level completes exactly when no brick stood at the start |
| BrickCollision.CompletionLagsOneScan | packages/nextjs/components/game/BreakoutGame.tsx:145-188 | a scan that finds a standing brick never completes the level, even if it breaks the last one; if none is left standing, the next scan completes it |
| BrickCollision.LastBrickCompletesNextScan | packages/nextjs/components/game/BreakoutGame.tsx:160-188 | breaking the last brick scores its hitsRequired and relays once, but completion only comes on the following scan |
| GameRules.PaddleWidth | packages/nextjs/components/game/BreakoutGame.tsx:76 | `max(100 - (level-1)*5, 50)`: at least both 50 and the linear formula, and equal to one of them; at most 100 from level 1 on |
| GameRules.PaddleWidthShrinks | packages/nextjs/components/game/BreakoutGame.tsx:76 | the paddle never widens with the level, and from level 11 on it is at the minimum |
| GameRules.RemoveFallen | packages/nextjs/components/game/BreakoutGame.tsx:257-260 | exactly the balls with `y + radius <= height` remain |
| GameRules.RemoveFallenKeepsOrder | packages/nextjs/components/game/BreakoutGame.tsx:257-260 | the survivors keep their order |
| GameRules.RemoveFallenDistributes | packages/nextjs/components/game/BreakoutGame.tsx:257-260 | the filter of a concatenation is the concatenation of the filters |
| GameRules.RemoveFallenSnoc | packages/nextjs/components/game/BreakoutGame.tsx:257-260 | appending a ball appends it to the survivors exactly when it has not fallen, so each copy of a ball is judged on its own and multiplicities are kept |
| GameRules.GameOver | packages/nextjs/components/game/BreakoutGame.tsx:263-268 | the game is over exactly when every ball has fallen |
| PowerUps.CreatePowerUp | packages/nextjs/components/game/game_utils/powerUps.ts:13-24 | the given position and kind; active; dy 2; 20 x 20; duration 10000; no start time |
| PowerUps.UpdatePowerUp | packages/nextjs/components/game/game_utils/powerUps.ts:48-51 | an active power-up falls by dy; an inactive one is unchanged |
| PowerUps.Collides | packages/nextjs/components/game/game_utils/powerUps.ts:53-62 | an inactive power-up never collides; an active one collides exactly when the open intervals overlap on both axes |
| PowerUps.OpenOverlapIffCommonPoint | packages/nextjs/components/game/game_utils/powerUps.ts:56-61 | for positive widths, strict overlap means a shared interior point, so edges that only touch do not overlap |
| PowerUps.CollidesIffInteriorsMeet | packages/nextjs/components/game/game_utils/powerUps.ts:53-62 | an active power-up is caught exactly when its square and the paddle share interior points on both axes |
| PowerUps.FallsSteadily | packages/nextjs/components/game/game_utils/powerUps.ts:48-51 | n frames move an active power-up down by n times dy and change nothing else |
| PowerUps.ActivatedStaysPut | packages/nextjs/components/game/game_utils/powerUps.ts:48-81 | once activated, a power-up stays where it is for any number of frames and never collides with any paddle again |
| PowerUps.Activate | packages/nextjs/components/game/game_utils/powerUps.ts:64-81 | deactivates and stamps the start time; multi-ball appends one copy of the first ball with dx reversed; wide paddle multiplies the width by 1.5 |
| PowerUps.Deactivate | packages/nextjs/components/game/game_utils/powerUps.ts:83-92 | multi-ball keeps at most the first ball; wide paddle divides the width by 1.5 |
| PowerUps.WidePaddleRoundTrip | packages/nextjs/components/game/game_utils/powerUps.ts:78-90 | over the reals, activating then deactivating a wide paddle restores the width exactly |
| PowerUps.MultiBallRoundTrip | packages/nextjs/components/game/game_utils/powerUps.ts:69-87 | activating then deactivating a multi-ball leaves only the original first ball |
| Particles.DrawParticles | packages/nextjs/components/game/game_utils/drawParticles.ts:11-30 | without a canvas the list is untouched; otherwise the splice loop produces exactly one frame of `Tick` |
| Particles.Tick | packages/nextjs/components/game/game_utils/drawParticles.ts:14-29 | one frame never lengthens the list; the rest of its contract is carried by `TickSpec` and `TickDropsDead` |
| Particles.TickSpec | packages/nextjs/components/game/game_utils/drawParticles.ts:14-29 | the output length is the number of live particles, and the k-th live particle becomes the k-th output, aged by one frame |
| Particles.TickDropsDead | packages/nextjs/components/game/game_utils/drawParticles.ts:16-28 | every survivor is an aged live input with life >= 0; no dead particle survives |
| Particles.LastLifeTakesTwoFrames | packages/nextjs/components/game/game_utils/drawParticles.ts:16-27 | a particle reaching life 0 stays for one frame and is removed on the next |
| Particles.TickNUniform | packages/nextjs/components/game/game_utils/drawParticles.ts:14-29 | a list whose particles share a life `l >= 0` keeps every particle for `l` frames, each `n` frames younger after `n`, and is empty after `l + 1` |
| Particles.BurstLifetime | packages/nextjs/components/game/game_utils/createParticles.ts:3-15 | a fresh burst of 20 particles is still whole after 50 frames, with life `50 - n` after `n`, and is gone on the 51st frame |
| Particles.CreateParticles | packages/nextjs/components/game/game_utils/createParticles.ts:3-15 | exactly 20 particles appended after the unchanged list, each at (x, y) with life 50, whose dx and dy are the burst's two draws for it mapped by `(d - 0.5) * 2`, hence in [-1, 1) |

## Left out

- The HTTP route layer (`app/api/relay/route.ts`, `app/api/transactions/route.ts`) is not modelled: request parsing, the 400 response for a missing player or action, and JSON encoding. `Enqueue` accepts any strings. The view model takes the record list directly.
- The viem and ethers calls are foreign code: account derivation, wallet client, contract lookup, `getTransactionCount` and `contract.write`. The `Replies` oracle replaces them.
- Synchronous start of an item: in the source, the code after `queue.shift()` runs inside the call that drained until its first real suspension. With the configuration missing, `addToQueue` therefore returns with the record already failed and the next item already drained. With a known tracker, `currentNonce` is already incremented. The model performs all of this in the later `Finish` step, and lets an `Enqueue` happen in between. That is a superset of the source's interleavings, so the invariants still cover the source; what is left out is only the timing of these changes relative to the `addToQueue` call.
- Promises and the event loop: `resolve` and `reject` become the `settled` log. The executor runs as one step. While it is suspended only `Enqueue` can run, and `Enqueue` touches neither the nonce nor the in-flight record.
- The superseded `app/transactionQueue/queue.ts` is not modelled; no route imports it.
- The painting half of `drawBricks.ts` (lines 24-72) is not modelled, and neither are `drawBall`, `drawPaddle`, `drawText`, `drawGameOver`, `drawButton`, `drawPowerUp` or `drawBouncingText`. All of them are canvas output.
- The React state, effects and timers are not modelled. `setScore`'s updater is applied at once. The level advance scheduled by `setTimeout` (BreakoutGame.tsx:189-193) and sound playback are left out; only the level-complete flag is modelled.
- Ball and paddle movement, wall bounces, paddle bounces, the falling-power-up filter and power-up expiry (BreakoutGame.tsx:238-254, 270-310) are floating-point and clock-dependent.
- `Math.random` is replaced by explicit draws. In `createBricks`, the power-up probability comparison (createBricks.ts:31, 40) is supplied as a boolean per brick. The interleaving of draws across bricks is abstracted to one `BrickDraw` per brick.
- `Date.now()` is the `now` parameter of `PowerUps.Activate`.
- Numbers are exact: coordinates are reals and counters are unbounded integers. The model ignores IEEE rounding and the 2^53 limit on exact integers. Brick ids are `BigInt` in the source and `int` here.
- PowerUps.WidePaddleRoundTrip: holds over the reals only; in IEEE doubles `w * 1.5 / 1.5` need not equal `w`.
- PowerUps.Activate: requires a ball to copy for a multi-ball. With none, the source pushes an object built from `undefined` with a `NaN` dx. The game never reaches that state, because `update` returns at game over (BreakoutGame.tsx:263-268) before it processes power-ups.
- BrickCollision.CollisionDetection: relay requests are counted in `relays`, not fed into `RelayQueue.Enqueue`. `handleRegisterBrickBroken` reaches the queue through an asynchronous HTTP call. Bursts are recorded as their centres rather than as the particles `createParticles` would draw.
- TransactionView.SortNewestFirst: only its result is stated, an ordered permutation. Sort stability does not matter because the reduced list has distinct ids.
- `isInsideButton` and the UI components (`LevelSelection`, `TransactionTable`, `page.tsx`, `useRequests.tsx`) are not part of this model.

## Findings

| source | as written | input that shows it | evidently intended | confidence | as-written member | corrected member |
|---|---|---|---|---|---|---|
| packages/nextjs/components/TransactionList.tsx:50-52 | pending counts entries without a txHash; failed counts entries with a txHash and status failed. The relayer never gives a failed record a txHash (queue.ts:138) | one `breakBrick` request with the relayer configuration missing: record {id 1, status failed, error "Relayer configuration missing", no txHash} yields pending 1, failed 0 | failed records counted as failed, and every entry counted once | not executed | HistoryDisplay.AsWrittenHidesFailures | HistoryDisplay.StatsByStatus |
| packages/nextjs/components/TransactionList.tsx:101-108 | the label is "pending" whenever the txHash is absent, so a failed record is labelled "pending" | the same failed record is labelled "pending" | the label shows "failed" for failed records | not executed | HistoryDisplay.FailedRequestShownPending | HistoryDisplay.LabelByStatus |

=== FILE: brick_collision.dfy ===
/** `collisionDetection` of components/game/BreakoutGame.tsx: one scan over
    the brick grid that registers ball hits, breaks bricks, scores, asks the
    relayer for one `breakBrick` per hit, spawns particle bursts and falling
    power-ups, and decides whether the level is complete. */
module BrickCollision {
  import opened Wrappers
  import opened Shapes
  import opened Bricks
  import opened PowerUps

  datatype Point = Point(x: real, y: real)

  /** Everything the scan reads or writes. `relays` counts the calls to
      `handleRegisterBrickBroken`; `bursts` holds the centres handed to
      `createParticles`; `allBroken` is the scan's local flag. */
  datatype Scan = Scan(
    bricks: Grid,
    balls: seq<Ball>,
    score: int,
    relays: nat,
    bursts: seq<Point>,
    fallingPowerUps: seq<PowerUp>,
    allBroken: bool)

  /** The ball's centre lies strictly inside the brick's rectangle. */
  predicate Inside(ball: Ball, b: Brick, w: real, h: real)
  {
    ball.x > b.x && ball.x < b.x + w && ball.y > b.y && ball.y < b.y + h
  }

  predicate AnyInside(balls: seq<Ball>, b: Brick, w: real, h: real)
  {
    exists i :: 0 <= i < |balls| && Inside(balls[i], b, w, h)
  }

  /** The ball the inner `for ... of` loop stops at with `break`. */
  function FirstInside(balls: seq<Ball>, b: Brick, w: real, h: real): (r: Option<nat>)
    ensures r.Some? ==> r.value < |balls| && Inside(balls[r.value], b, w, h)
    ensures r.Some? ==> forall j :: 0 <= j < r.value ==> !Inside(balls[j], b, w, h)
    ensures r.None? <==> !AnyInside(balls, b, w, h)
  {
    if |balls| == 0 then None
    else if Inside(balls[0], b, w, h) then Some(0)
    else match FirstInside(balls[1..], b, w, h)
      case None => None
      case Some(i) => Some(i + 1)
  }

  /** A registered hit: one more hit, and the brick breaks once it has
      taken as many as it requires. */
  function Hit(b: Brick): Brick
  {
    b.(currentHits := b.currentHits + 1,
       status := if b.currentHits + 1 >= b.hitsRequired then 0 else b.status)
  }

  /** What one scan does to a brick: a standing brick that some ball is
      inside takes exactly one hit; every other brick is left alone. */
  predicate Outcome(b0: Brick, b: Brick, balls: seq<Ball>, w: real, h: real)
  {
    if b0.status == 1 && AnyInside(balls, b0, w, h) then b == Hit(b0) else b == b0
  }

  /** Balls keep their number, positions, `dx` and radius; `dy` may be
      reversed. */
  predicate BallsKept(balls: seq<Ball>, balls': seq<Ball>)
  {
    |balls'| == |balls| &&
    forall i :: 0 <= i < |balls| ==> balls'[i] == balls[i] || balls'[i] == balls[i].(dy := -balls[i].dy)
  }

  /** The body of the row loop for the brick at (c, r). */
  function VisitBrick(s: Scan, c: nat, r: nat, w: real, h: real): (s': Scan)
    requires c < |s.bricks| && r < |s.bricks[c]|
    ensures SameShape(s.bricks, s'.bricks)
    ensures forall c', r' :: 0 <= c' < |s.bricks| && 0 <= r' < |s.bricks[c']| && (c', r') != (c, r) ==>
      s'.bricks[c'][r'] == s.bricks[c'][r']
    ensures Outcome(s.bricks[c][r], s'.bricks[c][r], s.balls, w, h)
    ensures s'.allBroken == (s.allBroken && s.bricks[c][r].status != 1)
    ensures BallsKept(s.balls, s'.balls)
  {
    var b := s.bricks[c][r];
    if b.status != 1 then s
    else
      var live := s.(allBroken := false);
      match FirstInside(s.balls, b, w, h)
      case None => live
      case Some(i) =>
        var ball := s.balls[i];
        var broken := b.currentHits + 1 >= b.hitsRequired;
        live.(
          bricks := s.bricks[c := s.bricks[c][r := Hit(b)]],
          balls := s.balls[i := ball.(dy := -ball.dy)],
          relays := s.relays + 1,
          score := if broken then s.score + b.hitsRequired else s.score,
          bursts := if broken then s.bursts + [Point(b.x + w / 2.0, b.y + h / 2.0)] else s.bursts,
          fallingPowerUps :=
            if broken && b.hasPowerUp && b.powerUpType.Some?
            then s.fallingPowerUps + [CreatePowerUp(b.x + w / 2.0 - 10.0, b.y + h, b.powerUpType.value)]
            else s.fallingPowerUps)
  }

  /** A ball after its `dy` has been reversed n times. */
  function Turned(ball: Ball, n: nat): Ball
  {
    if n % 2 == 0 then ball else ball.(dy := -ball.dy)
  }

  /** 1 when the brick stands and ball i is the one its visit stops at. */
  function Bounces(b: Brick, balls: seq<Ball>, i: nat, w: real, h: real): nat
  {
    if b.status == 1 && FirstInside(balls, b, w, h) == Some(i) then 1 else 0
  }

  /** The bricks of cells from .. rows of one column that ball i bounces off. */
  function RowBounces(row: seq<Brick>, from: nat, rows: nat, balls: seq<Ball>, i: nat, w: real, h: real): nat
    requires from <= rows <= |row|
    decreases rows - from
  {
    if from == rows then 0
    else Bounces(row[from], balls, i, w, h) + RowBounces(row, from + 1, rows, balls, i, w, h)
  }

  /** The bricks of columns from .. columns that ball i bounces off. */
  function GridBounces(g: Grid, from: nat, columns: nat, rows: nat, balls: seq<Ball>, i: nat, w: real, h: real): nat
    requires from <= columns && Spans(g, columns, rows)
    decreases columns - from
  {
    if from == columns then 0
    else RowBounces(g[from], 0, rows, balls, i, w, h) + GridBounces(g, from + 1, columns, rows, balls, i, w, h)
  }

  /** The row loop `for (r = from; r < rows; r++)` of column c. */
  function ScanRows(s: Scan, c: nat, from: nat, rows: nat, w: real, h: real): Scan
    requires c < |s.bricks| && from <= rows <= |s.bricks[c]|
    decreases rows - from
  {
    if from == rows then s
    else
      var s1 := VisitBrick(s, c, from, w, h);
      ScanRows(s1, c, from + 1, rows, w, h)
  }

  /** The column loop `for (c = from; c < columns; c++)`. */
  function ScanColumns(s: Scan, from: nat, columns: nat, rows: nat, w: real, h: real): Scan
    requires from <= columns && Spans(s.bricks, columns, rows)
    decreases columns - from
  {
    if from == columns then s
    else
      var s1 := ScanRows(s, from, 0, rows, w, h);
      ScanRowsShape(s, from, 0, rows, w, h);
      ScanColumns(s1, from + 1, columns, rows, w, h)
  }

  /** The row loop keeps the grid's shape. */
  lemma {:induction false} ScanRowsShape(s: Scan, c: nat, from: nat, rows: nat, w: real, h: real)
    requires c < |s.bricks| && from <= rows <= |s.bricks[c]|
    ensures SameShape(s.bricks, ScanRows(s, c, from, rows, w, h).bricks)
    decreases rows - from
  {
    if from < rows {
      ScanRowsShape(VisitBrick(s, c, from, w, h), c, from + 1, rows, w, h);
    }
  }

  /** `collisionDetection`: the flag starts true and the result's flag says
      whether the level is complete. */
  function CollisionDetection(s: Scan, columns: nat, rows: nat, w: real, h: real): Scan
    requires Spans(s.bricks, columns, rows)
  {
    ScanColumns(s.(allBroken := true), 0, columns, rows, w, h)
  }

  // Totals over the grid, used to state what the scan accounts for.

  function RowSum(row: seq<Brick>, f: Brick -> int): int
  {
    if |row| == 0 then 0 else f(row[0]) + RowSum(row[1..], f)
  }

  function GridSum(g: Grid, f: Brick -> int): int
  {
    if |g| == 0 then 0 else RowSum(g[0], f) + GridSum(g[1..], f)
  }

  function HitsOf(b: Brick): int
  {
    b.currentHits
  }

  /** Points a broken brick has paid out. */
  function Banked(b: Brick): int
  {
    if b.status == 0 then b.hitsRequired else 0
  }

  function BrokenCount(b: Brick): int
  {
    if b.status == 0 then 1 else 0
  }

  /** A broken brick that dropped its power-up. */
  function Drops(b: Brick): int
  {
    if b.status == 0 && b.hasPowerUp && b.powerUpType.Some? then 1 else 0
  }

  /** The books balance between two states: every relay request is a hit
      some brick took, every point is a broken brick's `hitsRequired`,
      every burst is a broken brick and every new power-up is a broken
      brick that carried one; bursts and power-ups are only appended, and
      the new power-ups are fresh. */
  predicate Accounted(s: Scan, s': Scan)
  {
    && s'.relays - GridSum(s'.bricks, HitsOf) == s.relays - GridSum(s.bricks, HitsOf)
    && s'.score - GridSum(s'.bricks, Banked) == s.score - GridSum(s.bricks, Banked)
    && |s'.bursts| - GridSum(s'.bricks, BrokenCount) == |s.bursts| - GridSum(s.bricks, BrokenCount)
    && |s'.fallingPowerUps| - GridSum(s'.bricks, Drops) == |s.fallingPowerUps| - GridSum(s.bricks, Drops)
    && s.bursts <= s'.bursts
    && s.fallingPowerUps <= s'.fallingPowerUps
    && forall k :: |s.fallingPowerUps| <= k < |s'.fallingPowerUps| ==>
         s'.fallingPowerUps[k].active && s'.fallingPowerUps[k].startTime.None?
  }

  lemma {:induction false} RowSumUpdate(row: seq<Brick>, i: nat, b: Brick, f: Brick -> int)
    requires i < |row|
    ensures RowSum(row[i := b], f) == RowSum(row, f) - f(row[i]) + f(b)
    decreases i
  {
    if i == 0 {
      assert row[i := b][1..] == row[1..];
    } else {
      RowSumUpdate(row[1..], i - 1, b, f);
      assert row[i := b][1..] == row[1..][i - 1 := b];
    }
  }

  lemma {:induction false} GridSumUpdate(g: Grid, c: nat, r: nat, b: Brick, f: Brick -> int)
    requires c < |g| && r < |g[c]|
    ensures GridSum(g[c := g[c][r := b]], f) == GridSum(g, f) - f(g[c][r]) + f(b)
    decreases c
  {
    if c == 0 {
      RowSumUpdate(g[0], r, b, f);
      assert g[c := g[c][r := b]][1..] == g[1..];
    } else {
      GridSumUpdate(g[1..], c - 1, r, b, f);
      assert g[c := g[c][r := b]][1..] == g[1..][c - 1 := g[c][r := b]];
    }
  }

  /** One visit keeps the books balanced. */
  lemma VisitAccounted(s: Scan, c: nat, r: nat, w: real, h: real)
    requires c < |s.bricks| && r < |s.bricks[c]|
    ensures Accounted(s, VisitBrick(s, c, r, w, h))
  {
    var b := s.bricks[c][r];
    if b.status == 1 && FirstInside(s.balls, b, w, h).Some? {
      var s' := VisitBrick(s, c, r, w, h);
      assert s'.bricks == s.bricks[c := s.bricks[c][r := Hit(b)]];
      GridSumUpdate(s.bricks, c, r, Hit(b), HitsOf);
      GridSumUpdate(s.bricks, c, r, Hit(b), Banked);
      GridSumUpdate(s.bricks, c, r, Hit(b), BrokenCount);
      GridSumUpdate(s.bricks, c, r, Hit(b), Drops);
    }
  }

  /** Accounting composes over consecutive steps. */
  lemma AccountedTransitive(s0: Scan, s1: Scan, s2: Scan)
    requires Accounted(s0, s1) && Accounted(s1, s2)
    ensures Accounted(s0, s2)
  {
  }

  /** Reversing `dy` twice gives the ball back, so any number of visits
      keeps the balls. */
  lemma BallsKeptTransitive(b0: seq<Ball>, b1: seq<Ball>, b2: seq<Ball>)
    requires BallsKept(b0, b1) && BallsKept(b1, b2)
    ensures BallsKept(b0, b2)
  {
    forall i | 0 <= i < |b0|
      ensures b2[i] == b0[i] || b2[i] == b0[i].(dy := -b0[i].dy)
    {
      if b1[i] != b0[i] && b2[i] != b1[i] {
        assert b2[i] == b0[i].(dy := -(-b0[i].dy));
      }
    }
  }

  /** Whether a ball is inside a brick depends only on ball positions,
      which the scan never changes. */
  lemma AnyInsideKept(balls: seq<Ball>, balls': seq<Ball>, b: Brick, w: real, h: real)
    requires BallsKept(balls, balls')
    ensures AnyInside(balls', b, w, h) <==> AnyInside(balls, b, w, h)
  {
    if AnyInside(balls', b, w, h) {
      var i :| 0 <= i < |balls'| && Inside(balls'[i], b, w, h);
      assert Inside(balls[i], b, w, h);
    }
    if AnyInside(balls, b, w, h) {
      var i :| 0 <= i < |balls| && Inside(balls[i], b, w, h);
      assert Inside(balls'[i], b, w, h);
    }
  }

  lemma TurnedTwice(ball: Ball, m: nat, n: nat)
    ensures Turned(Turned(ball, m), n) == Turned(ball, m + n)
  {
    if m % 2 == 1 && n % 2 == 1 {
      assert Turned(Turned(ball, m), n) == ball.(dy := -(-ball.dy));
    }
  }

  /** The ball a brick's visit stops at depends only on positions. */
  lemma {:induction false} FirstInsideKept(balls: seq<Ball>, balls': seq<Ball>, b: Brick, w: real, h: real)
    requires BallsKept(balls, balls')
    ensures FirstInside(balls', b, w, h) == FirstInside(balls, b, w, h)
    decreases |balls|
  {
    if |balls| > 0 {
      assert Inside(balls'[0], b, w, h) == Inside(balls[0], b, w, h);
      assert BallsKept(balls[1..], balls'[1..]) by {
        forall j | 0 <= j < |balls[1..]|
          ensures balls'[1..][j] == balls[1..][j] || balls'[1..][j] == balls[1..][j].(dy := -balls[1..][j].dy)
        {
          assert balls'[1..][j] == balls'[j + 1];
        }
      }
      FirstInsideKept(balls[1..], balls'[1..], b, w, h);
    }
  }

  lemma {:induction false} RowBouncesFrame(row: seq<Brick>, row': seq<Brick>, from: nat, rows: nat,
                                           balls: seq<Ball>, balls': seq<Ball>, i: nat, w: real, h: real)
    requires from <= rows <= |row| && rows <= |row'|
    requires forall r :: from <= r < rows ==> row'[r] == row[r]
    requires BallsKept(balls, balls')
    ensures RowBounces(row', from, rows, balls', i, w, h) == RowBounces(row, from, rows, balls, i, w, h)
    decreases rows - from
  {
    if from < rows {
      FirstInsideKept(balls, balls', row[from], w, h);
      RowBouncesFrame(row, row', from + 1, rows, balls, balls', i, w, h);
    }
  }

  lemma {:induction false} GridBouncesFrame(g: Grid, g': Grid, from: nat, columns: nat, rows: nat,
                                            balls: seq<Ball>, balls': seq<Ball>, i: nat, w: real, h: real)
    requires from <= columns && Spans(g, columns, rows) && Spans(g', columns, rows)
    requires forall c, r :: from <= c < columns && 0 <= r < rows ==> g'[c][r] == g[c][r]
    requires BallsKept(balls, balls')
    ensures GridBounces(g', from, columns, rows, balls', i, w, h) == GridBounces(g, from, columns, rows, balls, i, w, h)
    decreases columns - from
  {
    if from < columns {
      RowBouncesFrame(g[from], g'[from], 0, rows, balls, balls', i, w, h);
      GridBouncesFrame(g, g', from + 1, columns, rows, balls, balls', i, w, h);
    }
  }

  /** The row loop of column c: each cell (c, r) with r in from .. rows
      ends as `Outcome` says, judged against the bricks and balls at the
      start of the loop; every other cell is untouched; the flag falls
      exactly when one of those cells held a standing brick. */
  lemma {:induction false} ScanRowsEffect(s: Scan, c: nat, from: nat, rows: nat, w: real, h: real)
    requires c < |s.bricks| && from <= rows <= |s.bricks[c]|
    ensures var s' := ScanRows(s, c, from, rows, w, h);
      && SameShape(s.bricks, s'.bricks)
      && (forall c', r' :: 0 <= c' < |s.bricks| && 0 <= r' < |s.bricks[c']| && !(c' == c && from <= r' < rows) ==>
            s'.bricks[c'][r'] == s.bricks[c'][r'])
      && (forall r' :: from <= r' < rows ==> Outcome(s.bricks[c][r'], s'.bricks[c][r'], s.balls, w, h))
      && s'.allBroken == (s.allBroken && forall r' :: from <= r' < rows ==> s.bricks[c][r'].status != 1)
      && BallsKept(s.balls, s'.balls)
      && (forall i :: 0 <= i < |s.balls| ==>
            s'.balls[i] == Turned(s.balls[i], RowBounces(s.bricks[c], from, rows, s.balls, i, w, h)))
      && Accounted(s, s')
  {
    ScanRowsBricks(s, c, from, rows, w, h);
    ScanRowsBooks(s, c, from, rows, w, h);
    var s' := ScanRows(s, c, from, rows, w, h);
    forall i | 0 <= i < |s.balls|
      ensures s'.balls[i] == Turned(s.balls[i], RowBounces(s.bricks[c], from, rows, s.balls, i, w, h))
    {
      ScanRowsTurns(s, c, from, rows, i, w, h);
    }
  }

  /** The books of `ScanRowsEffect`. */
  lemma {:induction false} ScanRowsBooks(s: Scan, c: nat, from: nat, rows: nat, w: real, h: real)
    requires c < |s.bricks| && from <= rows <= |s.bricks[c]|
    ensures Accounted(s, ScanRows(s, c, from, rows, w, h))
    decreases rows - from
  {
    if from < rows {
      var s1 := VisitBrick(s, c, from, w, h);
      VisitAccounted(s, c, from, w, h);
      ScanRowsBooks(s1, c, from + 1, rows, w, h);
      AccountedTransitive(s, s1, ScanRows(s1, c, from + 1, rows, w, h));
    }
  }

  /** The brick half of `ScanRowsEffect`, with the ball shape. */
  lemma {:induction false} ScanRowsBricks(s: Scan, c: nat, from: nat, rows: nat, w: real, h: real)
    requires c < |s.bricks| && from <= rows <= |s.bricks[c]|
    ensures var s' := ScanRows(s, c, from, rows, w, h);
      && SameShape(s.bricks, s'.bricks)
      && (forall c', r' :: 0 <= c' < |s.bricks| && 0 <= r' < |s.bricks[c']| && !(c' == c && from <= r' < rows) ==>
            s'.bricks[c'][r'] == s.bricks[c'][r'])
      && (forall r' :: from <= r' < rows ==> Outcome(s.bricks[c][r'], s'.bricks[c][r'], s.balls, w, h))
      && s'.allBroken == (s.allBroken && forall r' :: from <= r' < rows ==> s.bricks[c][r'].status != 1)
      && BallsKept(s.balls, s'.balls)
    decreases rows - from
  {
    var s' := ScanRows(s, c, from, rows, w, h);
    if from == rows {
      assert BallsKept(s.balls, s.balls);
    } else {
      var s1 := VisitBrick(s, c, from, w, h);
      ScanRowsBricks(s1, c, from + 1, rows, w, h);
      assert s' == ScanRows(s1, c, from + 1, rows, w, h);
      BallsKeptTransitive(s.balls, s1.balls, s'.balls);
      forall r' | from < r' < rows
        ensures Outcome(s.bricks[c][r'], s'.bricks[c][r'], s.balls, w, h)
      {
        AnyInsideKept(s.balls, s1.balls, s.bricks[c][r'], w, h);
      }
    }
  }

  /** What one visit does to the balls: the first ball inside a standing
      brick, and no other, has `dy` reversed. */
  lemma VisitBalls(s: Scan, c: nat, r: nat, w: real, h: real)
    requires c < |s.bricks| && r < |s.bricks[c]|
    ensures var s' := VisitBrick(s, c, r, w, h);
      var b := s.bricks[c][r]; var f := FirstInside(s.balls, b, w, h);
      if b.status == 1 && f.Some?
      then s'.balls == s.balls[f.value := s.balls[f.value].(dy := -s.balls[f.value].dy)]
      else s'.balls == s.balls
  {
  }

  /** One visit reverses ball i once exactly when the visit stops at it. */
  lemma VisitTurns(s: Scan, c: nat, r: nat, i: nat, w: real, h: real)
    requires c < |s.bricks| && r < |s.bricks[c]| && i < |s.balls|
    ensures VisitBrick(s, c, r, w, h).balls[i] == Turned(s.balls[i], Bounces(s.bricks[c][r], s.balls, i, w, h))
  {
    VisitBalls(s, c, r, w, h);
  }

  /** One visit, seen from ball i: the ball turns by the visited brick's
      bounce, and the rest of the row counts the same bounces as before. */
  lemma VisitStep(s: Scan, c: nat, from: nat, rows: nat, i: nat, w: real, h: real)
    requires c < |s.bricks| && from < rows <= |s.bricks[c]| && i < |s.balls|
    ensures var s1 := VisitBrick(s, c, from, w, h);
      && c < |s1.bricks| && rows <= |s1.bricks[c]| && i < |s1.balls|
      && s1.balls[i] == Turned(s.balls[i], Bounces(s.bricks[c][from], s.balls, i, w, h))
      && RowBounces(s1.bricks[c], from + 1, rows, s1.balls, i, w, h)
         == RowBounces(s.bricks[c], from + 1, rows, s.balls, i, w, h)
  {
    var s1 := VisitBrick(s, c, from, w, h);
    VisitTurns(s, c, from, i, w, h);
    RowBouncesFrame(s.bricks[c], s1.bricks[c], from + 1, rows, s.balls, s1.balls, i, w, h);
  }

  /** The ball half of `ScanRowsEffect`: ball i ends reversed once per
      standing brick of the loop's cells whose visit stops at it. */
  lemma {:induction false} ScanRowsTurns(s: Scan, c: nat, from: nat, rows: nat, i: nat, w: real, h: real)
    requires c < |s.bricks| && from <= rows <= |s.bricks[c]| && i < |s.balls|
    ensures var s' := ScanRows(s, c, from, rows, w, h);
      i < |s'.balls| && s'.balls[i] == Turned(s.balls[i], RowBounces(s.bricks[c], from, rows, s.balls, i, w, h))
    decreases rows - from
  {
    if from < rows {
      var s1 := VisitBrick(s, c, from, w, h);
      VisitStep(s, c, from, rows, i, w, h);
      ScanRowsTurns(s1, c, from + 1, rows, i, w, h);
      TurnedTwice(s.balls[i], Bounces(s.bricks[c][from], s.balls, i, w, h),
                  RowBounces(s.bricks[c], from + 1, rows, s.balls, i, w, h));
    }
  }

  /** No brick in the scanned cells is standing. */
  predicate NoneStanding(g: Grid, columns: nat, rows: nat)
    requires Spans(g, columns, rows)
  {
    forall c, r :: 0 <= c < columns && 0 <= r < rows ==> g[c][r].status != 1
  }

  /** The column loop from column `from` on, as `ScanRowsEffect` per column. */
  lemma ScanColumnsEffect(s: Scan, from: nat, columns: nat, rows: nat, w: real, h: real)
    requires from <= columns && Spans(s.bricks, columns, rows)
    ensures var s' := ScanColumns(s, from, columns, rows, w, h);
      && SameShape(s.bricks, s'.bricks)
      && (forall c, r :: 0 <= c < |s.bricks| && 0 <= r < |s.bricks[c]| && !(from <= c < columns && r < rows) ==>
            s'.bricks[c][r] == s.bricks[c][r])
      && (forall c, r :: from <= c < columns && 0 <= r < rows ==>
            Outcome(s.bricks[c][r], s'.bricks[c][r], s.balls, w, h))
      && s'.allBroken == (s.allBroken && forall c, r :: from <= c < columns && 0 <= r < rows ==> s.bricks[c][r].status != 1)
      && BallsKept(s.balls, s'.balls)
      && (forall i :: 0 <= i < |s.balls| ==>
            s'.balls[i] == Turned(s.balls[i], GridBounces(s.bricks, from, columns, rows, s.balls, i, w, h)))
      && Accounted(s, s')
  {
    ScanColumnsBricks(s, from, columns, rows, w, h);
    ScanColumnsBooks(s, from, columns, rows, w, h);
    var s' := ScanColumns(s, from, columns, rows, w, h);
    forall i | 0 <= i < |s.balls|
      ensures s'.balls[i] == Turned(s.balls[i], GridBounces(s.bricks, from, columns, rows, s.balls, i, w, h))
    {
      ScanColumnsTurns(s, from, columns, rows, i, w, h);
    }
  }

  /** The books of `ScanColumnsEffect`. */
  lemma {:induction false} ScanColumnsBooks(s: Scan, from: nat, columns: nat, rows: nat, w: real, h: real)
    requires from <= columns && Spans(s.bricks, columns, rows)
    ensures Accounted(s, ScanColumns(s, from, columns, rows, w, h))
    decreases columns - from
  {
    if from < columns {
      var s1 := ScanRows(s, from, 0, rows, w, h);
      ScanRowsEffect(s, from, 0, rows, w, h);
      ScanColumnsBooks(s1, from + 1, columns, rows, w, h);
      AccountedTransitive(s, s1, ScanColumns(s1, from + 1, columns, rows, w, h));
    }
  }

  /** The ball half of `ScanColumnsEffect`, one ball at a time. */
  lemma {:induction false} ScanColumnsTurns(s: Scan, from: nat, columns: nat, rows: nat, i: nat, w: real, h: real)
    requires from <= columns && Spans(s.bricks, columns, rows) && i < |s.balls|
    ensures var s' := ScanColumns(s, from, columns, rows, w, h);
      i < |s'.balls| && s'.balls[i] == Turned(s.balls[i], GridBounces(s.bricks, from, columns, rows, s.balls, i, w, h))
    decreases columns - from
  {
    if from < columns {
      ColumnStep(s, from, columns, rows, i, w, h);
    }
  }

  /** One column, seen from ball i: the ball turns by the column's bounces,
      then by those of the later columns. */
  lemma {:induction false} ColumnStep(s: Scan, from: nat, columns: nat, rows: nat, i: nat, w: real, h: real)
    requires from < columns && Spans(s.bricks, columns, rows) && i < |s.balls|
    ensures var s' := ScanColumns(s, from, columns, rows, w, h);
      i < |s'.balls| && s'.balls[i] == Turned(s.balls[i], GridBounces(s.bricks, from, columns, rows, s.balls, i, w, h))
    decreases columns - from, 0
  {
    var s1 := ScanRows(s, from, 0, rows, w, h);
    var n0 := RowBounces(s.bricks[from], 0, rows, s.balls, i, w, h);
    var n1 := GridBounces(s.bricks, from + 1, columns, rows, s.balls, i, w, h);
    ScanRowsBricks(s, from, 0, rows, w, h);
    ScanRowsTurns(s, from, 0, rows, i, w, h);
    GridBouncesFrame(s.bricks, s1.bricks, from + 1, columns, rows, s.balls, s1.balls, i, w, h);
    ScanColumnsTurns(s1, from + 1, columns, rows, i, w, h);
    TurnedTwice(s.balls[i], n0, n1);
  }

  /** The brick half of `ScanColumnsEffect`, with the ball shape. */
  lemma {:induction false} ScanColumnsBricks(s: Scan, from: nat, columns: nat, rows: nat, w: real, h: real)
    requires from <= columns && Spans(s.bricks, columns, rows)
    ensures var s' := ScanColumns(s, from, columns, rows, w, h);
      && SameShape(s.bricks, s'.bricks)
      && (forall c, r :: 0 <= c < |s.bricks| && 0 <= r < |s.bricks[c]| && !(from <= c < columns && r < rows) ==>
            s'.bricks[c][r] == s.bricks[c][r])
      && (forall c, r :: from <= c < columns && 0 <= r < rows ==>
            Outcome(s.bricks[c][r], s'.bricks[c][r], s.balls, w, h))
      && s'.allBroken == (s.allBroken && forall c, r :: from <= c < columns && 0 <= r < rows ==> s.bricks[c][r].status != 1)
      && BallsKept(s.balls, s'.balls)
    decreases columns - from
  {
    var s' := ScanColumns(s, from, columns, rows, w, h);
    if from == columns {
      assert BallsKept(s.balls, s.balls);
    } else {
      var s1 := ScanRows(s, from, 0, rows, w, h);
      ScanRowsBricks(s, from, 0, rows, w, h);
      ScanColumnsBricks(s1, from + 1, columns, rows, w, h);
      assert s' == ScanColumns(s1, from + 1, columns, rows, w, h);
      BallsKeptTransitive(s.balls, s1.balls, s'.balls);
      forall c, r | from < c < columns && 0 <= r < rows
        ensures Outcome(s.bricks[c][r], s'.bricks[c][r], s.balls, w, h)
      {
        AnyInsideKept(s.balls, s1.balls, s.bricks[c][r], w, h);
      }
    }
  }

  /** One call of `collisionDetection`: every scanned cell ends as `Outcome`
      says (at most one hit per brick, broken bricks skipped), the rest of
      the grid and the ball positions are untouched, the books balance,
      and the level is complete exactly when no scanned brick was standing
      when the scan began. */
  lemma CollisionDetectionEffect(s: Scan, columns: nat, rows: nat, w: real, h: real)
    requires Spans(s.bricks, columns, rows)
    ensures var s' := CollisionDetection(s, columns, rows, w, h);
      && SameShape(s.bricks, s'.bricks)
      && (forall c, r :: 0 <= c < |s.bricks| && 0 <= r < |s.bricks[c]| && !(c < columns && r < rows) ==>
            s'.bricks[c][r] == s.bricks[c][r])
      && (forall c, r :: 0 <= c < columns && 0 <= r < rows ==>
            Outcome(s.bricks[c][r], s'.bricks[c][r], s.balls, w, h))
      && (s'.allBroken <==> NoneStanding(s.bricks, columns, rows))
      && BallsKept(s.balls, s'.balls)
      && (forall i :: 0 <= i < |s.balls| ==>
            s'.balls[i] == Turned(s.balls[i], GridBounces(s.bricks, 0, columns, rows, s.balls, i, w, h)))
      && Accounted(s, s')
  {
    ScanColumnsEffect(s.(allBroken := true), 0, columns, rows, w, h);
  }

  /** Completion is decided on the bricks as they stood when the scan
      began: a scan that finds a standing brick never completes the level,
      even if it breaks that last brick; the next scan does. */
  lemma CompletionLagsOneScan(s: Scan, columns: nat, rows: nat, w: real, h: real)
    requires Spans(s.bricks, columns, rows)
    requires !NoneStanding(s.bricks, columns, rows)
    ensures var s1 := CollisionDetection(s, columns, rows, w, h);
      && !s1.allBroken
      && Spans(s1.bricks, columns, rows)
      && (NoneStanding(s1.bricks, columns, rows) ==> CollisionDetection(s1, columns, rows, w, h).allBroken)
  {
    CollisionDetectionEffect(s, columns, rows, w, h);
    var s1 := CollisionDetection(s, columns, rows, w, h);
    CollisionDetectionEffect(s1, columns, rows, w, h);
  }

  /** A one-brick wall whose brick needs one more hit, with a ball inside
      it: the scan breaks it, scores and relays once, yet the level is
      complete only after the following scan. */
  lemma LastBrickCompletesNextScan()
    ensures var b := Brick(1, 100.0, 50.0, 1, 2, 1, Some("#FFA500"), false, None);
      var ball := Ball(110.0, 60.0, 4.0, -4.0, 8.0);
      var s := Scan([[b]], [ball], 7, 0, [], [], false);
      var s1 := CollisionDetection(s, 1, 1, 90.0, 25.0);
      var s2 := CollisionDetection(s1, 1, 1, 90.0, 25.0);
      && s1.bricks[0][0].status == 0 && s1.bricks[0][0].currentHits == 2
      && s1.score == 9 && s1.relays == 1 && |s1.bursts| == 1
      && s1.balls == [ball.(dy := 4.0)]
      && !s1.allBroken && s2.allBroken
      && s2.bricks == s1.bricks && s2.relays == 1 && s2.score == 9
  {
    var b := Brick(1, 100.0, 50.0, 1, 2, 1, Some("#FFA500"), false, None);
    var ball := Ball(110.0, 60.0, 4.0, -4.0, 8.0);
    var s := Scan([[b]], [ball], 7, 0, [], [], false);
    assert Inside(ball, b, 90.0, 25.0);
    assert FirstInside([ball], b, 90.0, 25.0) == Some(0);
    var v := VisitBrick(s.(allBroken := true), 0, 0, 90.0, 25.0);
    assert [b][0 := Hit(b)] == [Hit(b)];
    assert [[b]][0 := [Hit(b)]] == [[Hit(b)]];
    assert v.bricks == [[Hit(b)]];
    var s1 := CollisionDetection(s, 1, 1, 90.0, 25.0);
    assert s1 == v;
    var v2 := VisitBrick(s1.(allBroken := true), 0, 0, 90.0, 25.0);
    assert CollisionDetection(s1, 1, 1, 90.0, 25.0) == v2;
  }
}

=== FILE: brick_layout.dfy ===
/** The position-assignment loop of `drawBricks`
    (components/game/game_utils/drawBricks.ts). Each standing brick in the
    first `columnCount` columns and `rowCount` rows gets its screen position;
    the painting that follows is left out. */
module BrickLayout {
  import opened Bricks
  import opened PowerUps

  datatype BrickProperties = BrickProperties(
    rowCount: nat,
    columnCount: nat,
    width: real,
    height: real,
    padding: real,
    offsetTop: real,
    offsetLeft: real)

  /** The start of slot k in a row of equal steps. */
  function Slot(k: int, step: real, offset: real): real
  {
    k as real * step + offset
  }

  /** `c * (brickWidth + brickPadding) + brickOffsetLeft`. */
  function CellX(c: int, p: BrickProperties): real
  {
    Slot(c, p.width + p.padding, p.offsetLeft)
  }

  /** `r * (brickHeight + brickPadding) + brickOffsetTop`. */
  function CellY(r: int, p: BrickProperties): real
  {
    Slot(r, p.height + p.padding, p.offsetTop)
  }

  /** What the loop body does to the brick of cell (c, r). */
  function Place(b: Brick, c: int, r: int, p: BrickProperties): (b': Brick)
    ensures b'.status == b.status && b'.hitsRequired == b.hitsRequired
    ensures b'.currentHits == b.currentHits && b'.id == b.id
    ensures b.status == 1 ==> b'.x == CellX(c, p) && b'.y == CellY(r, p)
    ensures b.status != 1 ==> b' == b
    ensures b' == b.(x := b'.x, y := b'.y)
  {
    if b.status == 1 then b.(x := CellX(c, p), y := CellY(r, p)) else b
  }

  function ColumnLayout(col: seq<Brick>, c: int, p: BrickProperties): (col': seq<Brick>)
    requires 0 <= c
    ensures |col'| == |col|
  {
    if c < p.columnCount then
      seq(|col|, r requires 0 <= r < |col| => if r < p.rowCount then Place(col[r], c, r, p) else col[r])
    else col
  }

  /** The grid after the loop, cell by cell. Cells outside the counts and
      broken bricks keep their coordinates; nothing but x and y changes. */
  function Layout(g: Grid, p: BrickProperties): (g': Grid)
    ensures SameShape(g, g')
    ensures forall c, r :: 0 <= c < |g| && 0 <= r < |g[c]| ==>
      && g'[c][r] == g[c][r].(x := g'[c][r].x, y := g'[c][r].y)
      && (if c < p.columnCount && r < p.rowCount && g[c][r].status == 1
          then g'[c][r].x == CellX(c, p) && g'[c][r].y == CellY(r, p)
          else g'[c][r] == g[c][r])
  {
    seq(|g|, c requires 0 <= c < |g| => ColumnLayout(g[c], c, p))
  }

  /** The nested loop of lines 16-23, run on the grid in place. */
  method AssignPositions(bricks: Grid, p: BrickProperties) returns (g: Grid)
    requires Spans(bricks, p.columnCount, p.rowCount)
    ensures g == Layout(bricks, p)
  {
    g := bricks;
    var c := 0;
    while c < p.columnCount
      invariant 0 <= c <= p.columnCount
      invariant |g| == |bricks|
      invariant forall k :: 0 <= k < |g| ==> g[k] == if k < c then ColumnLayout(bricks[k], k, p) else bricks[k]
    {
      var r := 0;
      while r < p.rowCount
        invariant 0 <= r <= p.rowCount
        invariant |g| == |bricks| && |g[c]| == |bricks[c]|
        invariant forall k :: 0 <= k < |g| && k != c ==>
          g[k] == if k < c then ColumnLayout(bricks[k], k, p) else bricks[k]
        invariant forall j :: 0 <= j < |g[c]| ==>
          g[c][j] == if j < r then Place(bricks[c][j], c, j, p) else bricks[c][j]
      {
        var brick := g[c][r];
        if brick.status == 1 {
          var brickX := c as real * (p.width + p.padding) + p.offsetLeft;
          var brickY := r as real * (p.height + p.padding) + p.offsetTop;
          g := g[c := g[c][r := brick.(x := brickX, y := brickY)]];
        }
        r := r + 1;
      }
      assert g[c] == ColumnLayout(bricks[c], c, p);
      c := c + 1;
    }
    assert forall k :: 0 <= k < |g| ==> g[k] == Layout(bricks, p)[k];
  }

  /** Laying out an already laid-out grid changes nothing: positions depend
      only on the cell. */
  lemma LayoutIdempotent(g: Grid, p: BrickProperties)
    ensures Layout(Layout(g, p), p) == Layout(g, p)
  {
    var once := Layout(g, p);
    var twice := Layout(once, p);
    forall c | 0 <= c < |g|
      ensures twice[c] == once[c]
    {
      assert forall r :: 0 <= r < |g[c]| ==> twice[c][r] == once[c][r];
    }
  }

  /** Later slots start at least one step further on. */
  lemma SlotsAscend(k1: int, k2: int, step: real, offset: real)
    requires k1 < k2 && step >= 0.0
    ensures Slot(k1, step, offset) + step <= Slot(k2, step, offset)
  {
    var d := (k2 - k1) as real;
    assert d >= 1.0;
    var e := d - 1.0;
    assert e * step >= 0.0;
    assert e * step == d * step - step;
    assert d * step >= step;
    assert k2 as real * step == k1 as real * step + d * step;
  }

  /** A brick occupies the open rectangle from its corner by width and height. */
  predicate Overlap(b1: Brick, b2: Brick, p: BrickProperties)
  {
    OpenOverlap(b1.x, p.width, b2.x, p.width) && OpenOverlap(b1.y, p.height, b2.y, p.height)
  }

  /** Intervals no wider than the distance between their starts do not
      overlap. */
  lemma IntervalsApart(a: real, b: real, step: real, size: real)
    requires a + step <= b || b + step <= a
    requires size <= step
    ensures !OpenOverlap(a, size, b, size)
  {
  }

  /** Slots of a row of equal steps, each no wider than the step, do not
      overlap. */
  lemma SlotsApart(k1: int, k2: int, step: real, size: real, offset: real)
    requires k1 != k2 && 0.0 <= size <= step
    ensures !OpenOverlap(Slot(k1, step, offset), size, Slot(k2, step, offset), size)
  {
    if k1 < k2 {
      SlotsAscend(k1, k2, step, offset);
    } else {
      SlotsAscend(k2, k1, step, offset);
    }
    IntervalsApart(Slot(k1, step, offset), Slot(k2, step, offset), step, size);
  }

  /** The slots of two different cells do not overlap. */
  lemma CellsApart(c1: int, r1: int, c2: int, r2: int, p: BrickProperties)
    requires p.width >= 0.0 && p.height >= 0.0 && p.padding >= 0.0
    requires (c1, r1) != (c2, r2)
    ensures !(OpenOverlap(CellX(c1, p), p.width, CellX(c2, p), p.width)
              && OpenOverlap(CellY(r1, p), p.height, CellY(r2, p), p.height))
  {
    if c1 != c2 {
      SlotsApart(c1, c2, p.width + p.padding, p.width, p.offsetLeft);
    } else {
      SlotsApart(r1, r2, p.height + p.padding, p.height, p.offsetTop);
    }
  }

  /** With non-negative sizes and padding, the standing bricks of two
      different cells never overlap once laid out, so a ball is strictly
      inside at most one of them. */
  lemma LaidOutBricksDisjoint(g: Grid, p: BrickProperties, c1: nat, r1: nat, c2: nat, r2: nat)
    requires p.width >= 0.0 && p.height >= 0.0 && p.padding >= 0.0
    requires c1 < |g| && r1 < |g[c1]| && c2 < |g| && r2 < |g[c2]|
    requires c1 < p.columnCount && r1 < p.rowCount && c2 < p.columnCount && r2 < p.rowCount
    requires g[c1][r1].status == 1 && g[c2][r2].status == 1
    requires (c1, r1) != (c2, r2)
    ensures !Overlap(Layout(g, p)[c1][r1], Layout(g, p)[c2][r2], p)
  {
    CellsApart(c1, r1, c2, r2, p);
  }
}

=== FILE: bricks.dfy ===
/** The brick wall of a level (components/game/game_utils/createBricks.ts).
    `Math.random` is replaced by one `BrickDraw` per brick. */
module Bricks {
  import opened Wrappers
  import opened Shapes

  const MAX_HITS: int := 5

  /** A brick. `status` is 1 while the brick stands and 0 once broken;
      `color` is `None` where the palette lookup yields `undefined`. */
  datatype Brick = Brick(
    id: int,
    x: real,
    y: real,
    status: int,
    hitsRequired: int,
    currentHits: int,
    color: Option<string>,
    hasPowerUp: bool,
    powerUpType: Option<PowerUpKind>)

  /** Bricks by column, then row: `bricks[c][r]`. */
  type Grid = seq<seq<Brick>>

  /** The grid has a brick at every cell (c, r) with c < columns and
      r < rows; the game's loops read each such cell and would throw on a
      missing one. */
  predicate Spans(g: Grid, columns: nat, rows: nat)
  {
    |g| >= columns && forall c :: 0 <= c < columns ==> |g[c]| >= rows
  }

  /** Two grids have the same columns, of the same lengths. */
  predicate SameShape(g: Grid, g': Grid)
  {
    |g'| == |g| && forall c :: 0 <= c < |g| ==> |g'[c]| == |g[c]|
  }

  /** The random values one brick consumes: the hit draw, the outcome of the
      power-up draw against the level's probability, and the kind draw. */
  datatype BrickDraw = BrickDraw(hits: real, hasPowerUp: bool, kind: real)

  predicate ValidDraw(d: BrickDraw)
  {
    0.0 <= d.hits < 1.0 && 0.0 <= d.kind < 1.0
  }

  /** `Math.min(1 + Math.floor(level / 2), 5)`; a positive divisor makes
      Dafny's division the floor. */
  function HitCap(level: int): (cap: int)
    ensures cap <= MAX_HITS
    ensures level >= 0 ==> 1 <= cap
    ensures 0 <= level < 8 ==> cap == 1 + level / 2
    ensures level >= 8 ==> cap == MAX_HITS
  {
    var h := 1 + level / 2;
    if h < MAX_HITS then h else MAX_HITS
  }

  /** The colour table, indexed by hits required. */
  function Palette(hits: int): (c: Option<string>)
    ensures c.Some? <==> 1 <= hits <= MAX_HITS
  {
    if hits == 1 then Some("#FF0000")
    else if hits == 2 then Some("#FFA500")
    else if hits == 3 then Some("#FFFF00")
    else if hits == 4 then Some("#00FF00")
    else if hits == 5 then Some("#0000FF")
    else None
  }

  /** `Math.floor(Math.random() * cap) + 1`. */
  function BrickHits(draw: real, cap: int): (h: int)
    requires 0.0 <= draw < 1.0
    ensures cap >= 1 ==> 1 <= h <= cap
    // h - 1 is the floor of the scaled draw
    ensures (h - 1) as real <= draw * cap as real < h as real
  {
    var scaled := draw * cap as real;
    ScaledDrawBelowCap(draw, cap);
    scaled.Floor + 1
  }

  lemma ScaledDrawBelowCap(draw: real, cap: int)
    requires 0.0 <= draw < 1.0
    ensures cap >= 1 ==> 0.0 <= draw * cap as real < cap as real
  {
    if cap >= 1 {
      assert draw * cap as real < 1.0 * cap as real;
    }
  }

  /** `Math.random() < 0.5 ? "MULTI_BALL" : "WIDE_PADDLE"`, drawn only for
      a brick that carries a power-up. */
  function PowerUpFor(d: BrickDraw): (k: Option<PowerUpKind>)
    ensures k.Some? <==> d.hasPowerUp
    ensures d.hasPowerUp ==> (k == Some(MultiBall) <==> d.kind < 0.5)
    ensures d.hasPowerUp ==> (k == Some(WidePaddle) <==> d.kind >= 0.5)
  {
    if !d.hasPowerUp then None
    else if d.kind < 0.5 then Some(MultiBall)
    else Some(WidePaddle)
  }

  function NewBrick(id: int, d: BrickDraw, cap: int): Brick
    requires ValidDraw(d)
  {
    var h := BrickHits(d.hits, cap);
    Brick(id, 0.0, 0.0, 1, h, 0, Palette(h), d.hasPowerUp, PowerUpFor(d))
  }

  /** The id of the brick at column c, row r: 1, 2, ... in column-major order. */
  function BrickId(c: int, r: int, rows: int): int
  {
    c * rows + r + 1
  }

  /** `createBricks`: `columns` columns of `rows` fresh standing bricks each. */
  function CreateBricks(columns: nat, rows: nat, level: int, draws: seq<seq<BrickDraw>>): (g: Grid)
    requires |draws| == columns && forall c :: 0 <= c < columns ==> |draws[c]| == rows
    requires forall c, r :: 0 <= c < columns && 0 <= r < rows ==> ValidDraw(draws[c][r])
    ensures |g| == columns && forall c :: 0 <= c < columns ==> |g[c]| == rows
    ensures forall c, r :: 0 <= c < columns && 0 <= r < rows ==>
      var b := g[c][r];
      && b.id == BrickId(c, r, rows)
      && b.status == 1 && b.currentHits == 0 && b.x == 0.0 && b.y == 0.0
      && (level >= 0 ==> 1 <= b.hitsRequired <= HitCap(level) && b.color.Some?)
      && b.color == Palette(b.hitsRequired)
      && b.hasPowerUp == draws[c][r].hasPowerUp
      && (b.powerUpType.Some? <==> b.hasPowerUp)
      && (b.hitsRequired - 1) as real <= draws[c][r].hits * HitCap(level) as real < b.hitsRequired as real
      && (b.hasPowerUp ==> (b.powerUpType == Some(MultiBall) <==> draws[c][r].kind < 0.5))
      && (b.hasPowerUp ==> (b.powerUpType == Some(WidePaddle) <==> draws[c][r].kind >= 0.5))
  {
    var cap := HitCap(level);
    seq(columns, c requires 0 <= c < columns =>
      seq(rows, r requires 0 <= r < rows => NewBrick(BrickId(c, r, rows), draws[c][r], cap)))
  }

  /** Distinct cells get distinct ids, and the ids fill 1 .. columns * rows. */
  lemma BrickIdsInjective(c1: int, r1: int, c2: int, r2: int, rows: int)
    requires 0 <= c1 && 0 <= c2 && 0 <= r1 < rows && 0 <= r2 < rows
    requires BrickId(c1, r1, rows) == BrickId(c2, r2, rows)
    ensures c1 == c2 && r1 == r2
  {
    IdsIncreaseWithColumn(c1, r1, c2, r2, rows);
    IdsIncreaseWithColumn(c2, r2, c1, r1, rows);
  }

  /** Every id of a later column exceeds every id of an earlier one. */
  lemma IdsIncreaseWithColumn(c1: int, r1: int, c2: int, r2: int, rows: int)
    requires 0 <= c1 && 0 <= c2 && 0 <= r1 < rows && 0 <= r2 < rows
    ensures c1 < c2 ==> BrickId(c1, r1, rows) < BrickId(c2, r2, rows)
  {
    if c1 < c2 {
      assert c2 * rows - (c1 + 1) * rows == (c2 - c1 - 1) * rows;
    }
  }

  lemma BrickIdsCover(id: int, columns: nat, rows: nat)
    requires 1 <= id <= columns * rows
    ensures var c := (id - 1) / rows; var r := (id - 1) % rows;
      0 <= c < columns && 0 <= r < rows && BrickId(c, r, rows) == id
  {
  }

  /** The hit cap never falls as the level rises. */
  lemma HitCapMonotone(l1: int, l2: int)
    requires l1 <= l2
    ensures HitCap(l1) <= HitCap(l2)
  {
  }
}

=== FILE: executor.dfy ===
/** The submission executor: the body of `processQueue` between taking an item
    off the queue and settling its promise (services/transactionQueue/queue.ts).
    The chain is an oracle: for each of the at most two attempts it supplies the
    answer to the pending-count query and the outcome of the contract write. */
module Executor {
  import opened Wrappers
  import opened Text
  import opened NonceTracker
  import Records

  const CONFIG_MISSING: string := "Relayer configuration missing"
  const INVALID_ACTION: string := "Invalid action"
  const NONCE_TOO_LOW: string := "Nonce too low"

  /** The relayer's environment: private key, RPC URL and contract address.
      The empty string stands for an unset variable; both are falsy. */
  datatype Config = Config(relayerKey: string, rpcUrl: string, contractAddress: string)
  {
    predicate Complete()
    {
      relayerKey != "" && rpcUrl != "" && contractAddress != ""
    }
  }

  /** A queued request: who it is for, what to call, and its record's id. */
  datatype WorkItem = WorkItem(playerAddress: string, action: string, id: int)

  /** The outcome of `contract.write.breakBrick` / `contract.write.startGame`. */
  datatype Submission = Accepted(txHash: string) | Rejected(message: string)

  /** What the chain answers during one `sendTransaction` call. */
  datatype Reply = Reply(count: CountReply, submission: Submission)

  /** The chain's answers for the first attempt and for the retry. */
  datatype Replies = Replies(first: Reply, retry: Reply)

  /** How the caller's promise settles: `resolve({success, txHash})` or `reject({error})`. */
  datatype Outcome = Success(txHash: string) | Failure(error: string)

  datatype SendResult = Sent(txHash: string) | Threw(message: string)

  /** One `sendTransaction` call: the tracker afterwards, the nonces it drew,
      the nonces it handed to the chain, and how it ended. */
  datatype Attempt = Attempt(tracker: Option<nat>, draws: seq<Draw>, sent: seq<nat>, result: SendResult)

  predicate Supported(action: string)
  {
    action == Records.BREAK_BRICK || action == Records.START_GAME
  }

  /** `sendTransaction`: draw a nonce, then write the contract call for a
      supported action, or throw "Invalid action" for any other. */
  function SendTransaction(tracker: Option<nat>, action: string, reply: Reply): (a: Attempt)
    ensures |a.sent| <= |a.draws| <= 1
    ensures a.sent == (if |a.draws| == 1 && Supported(action) then [a.draws[0].value] else [])
    ensures |a.draws| == 1 ==> a.tracker == Some(a.draws[0].value)
    ensures |a.draws| == 0 ==> a.tracker == tracker && a.result.Threw?
    ensures a.result.Sent? <==> |a.sent| == 1 && reply.submission.Accepted?
    ensures a.result.Sent? ==> a.result.txHash == reply.submission.txHash
    ensures |a.draws| == 1 && !Supported(action) ==> a.result == Threw(INVALID_ACTION)
    // the nonce drawn is the tracker's answer, and failures carry the thrown message
    ensures Next(tracker, reply.count).Issued? ==> a.draws == [Next(tracker, reply.count).draw]
    ensures Next(tracker, reply.count).QueryFailed? ==>
      a.draws == [] && a.result == Threw(Next(tracker, reply.count).message)
    ensures |a.draws| == 1 && Supported(action) && reply.submission.Rejected? ==>
      a.result == Threw(reply.submission.message)
  {
    match Next(tracker, reply.count)
    case QueryFailed(m) => Attempt(tracker, [], [], Threw(m))
    case Issued(d) =>
      if Supported(action) then
        match reply.submission
        case Accepted(h) => Attempt(Some(d.value), [d], [d.value], Sent(h))
        case Rejected(m) => Attempt(Some(d.value), [d], [d.value], Threw(m))
      else
        Attempt(Some(d.value), [d], [], Threw(INVALID_ACTION))
  }

  /** Everything one executed work item did. `resets` counts `currentNonce = null`. */
  datatype Execution = Execution(
    tracker: Option<nat>,
    draws: seq<Draw>,
    sent: seq<nat>,
    resets: nat,
    outcome: Outcome)

  predicate IsStaleNonce(r: SendResult)
  {
    r.Threw? && Contains(r.message, NONCE_TOO_LOW)
  }

  /** The `try` block of `processQueue`, with its inner retry and outer `catch`. */
  function Execute(config: Config, tracker: Option<nat>, item: WorkItem, replies: Replies): (e: Execution)
    // configuration is checked before any nonce is drawn or anything is sent
    ensures !config.Complete() ==>
      e == Execution(tracker, [], [], 0, Failure(CONFIG_MISSING))
    // at most one reset, and exactly when the first attempt failed on a stale nonce
    ensures e.resets <= 1
    ensures config.Complete() ==>
      (e.resets == 1 <==> IsStaleNonce(SendTransaction(tracker, item.action, replies.first).result))
    ensures e.resets == 0 ==> |e.draws| <= 1
    ensures e.resets == 1 ==> |e.draws| <= 2
    ensures |e.sent| <= |e.draws|
    // after a reset the retry's nonce is adopted afresh from the chain
    ensures e.resets == 1 && e.tracker.Some? ==> |e.draws| > 0 && e.draws[|e.draws| - 1].adopted
    ensures e.outcome.Success? ==> |e.sent| >= 1
    ensures e.outcome.Success? ==> e.tracker.Some? && e.tracker.value == e.sent[|e.sent| - 1]
    // a stable tracker ends on the last nonce drawn
    ensures |e.draws| > 0 && e.tracker.Some? ==> e.tracker.value == e.draws[|e.draws| - 1].value
    ensures e.tracker.None? ==> tracker.None? || e.resets == 1
    // how the caller's promise settles, in terms of what the chain answered
    ensures config.Complete() ==>
      var first := SendTransaction(tracker, item.action, replies.first);
      && (first.result.Sent? ==> e.outcome == Success(first.result.txHash) && e.resets == 0)
      && (first.result.Threw? && !IsStaleNonce(first.result) ==>
            e.outcome == Failure(first.result.message) && e.resets == 0)
    ensures config.Complete() && e.resets == 1 ==>
      var retry := SendTransaction(None, item.action, replies.retry);
      && (retry.result.Sent? ==> e.outcome == Success(retry.result.txHash))
      && (retry.result.Threw? ==> e.outcome == Failure(retry.result.message))
    // the nonces drawn and written, and the tracker left behind, are exactly the attempts'
    ensures config.Complete() ==>
      var first := SendTransaction(tracker, item.action, replies.first);
      var retry := SendTransaction(None, item.action, replies.retry);
      && e.draws == first.draws + (if e.resets == 1 then retry.draws else [])
      && e.sent == first.sent + (if e.resets == 1 then retry.sent else [])
      && e.tracker == (if e.resets == 1 then retry.tracker else first.tracker)
  {
    if !config.Complete() then
      Execution(tracker, [], [], 0, Failure(CONFIG_MISSING))
    else
      var first := SendTransaction(tracker, item.action, replies.first);
      match first.result
      case Sent(h) => Execution(first.tracker, first.draws, first.sent, 0, Success(h))
      case Threw(m) =>
        if Contains(m, NONCE_TOO_LOW) then
          var second := SendTransaction(None, item.action, replies.retry);
          var outcome := match second.result
            case Sent(h) => Success(h)
            case Threw(m2) => Failure(m2);
          Execution(second.tracker, first.draws + second.draws, first.sent + second.sent, 1, outcome)
        else
          Execution(first.tracker, first.draws, first.sent, 0, Failure(m))
  }

  /** An executed item leaves the nonce log consecutive and the tracker on its
      last entry, whichever path it took. */
  lemma ExecuteKeepsNonceSound(config: Config, tracker: Option<nat>, log: seq<Draw>,
                               item: WorkItem, replies: Replies)
    requires Sound(tracker, log)
    ensures var e := Execute(config, tracker, item, replies);
      Sound(e.tracker, log + e.draws)
  {
    if config.Complete() {
      var first := SendTransaction(tracker, item.action, replies.first);
      SendKeepsSound(tracker, log, item.action, replies.first);
      var log1 := log + first.draws;
      if IsStaleNonce(first.result) {
        var second := SendTransaction(None, item.action, replies.retry);
        SendKeepsSound(None, log1, item.action, replies.retry);
        assert log1 + second.draws == log + (first.draws + second.draws);
      }
    }
  }

  lemma SendKeepsSound(tracker: Option<nat>, log: seq<Draw>, action: string, reply: Reply)
    requires Sound(tracker, log)
    ensures var a := SendTransaction(tracker, action, reply);
      Sound(a.tracker, log + a.draws)
  {
    NextKeepsSound(tracker, log, reply.count);
    var a := SendTransaction(tracker, action, reply);
    if a.draws == [] {
      assert log + a.draws == log;
    }
  }

  /** "Invalid action" cannot be mistaken for a stale nonce. */
  lemma InvalidActionIsNotStale()
    ensures !Contains(INVALID_ACTION, NONCE_TOO_LOW)
  {
    assert INVALID_ACTION[..|NONCE_TOO_LOW|] != NONCE_TOO_LOW by {
      assert INVALID_ACTION[0] != NONCE_TOO_LOW[0];
    }
    assert INVALID_ACTION[1..][..|NONCE_TOO_LOW|] != NONCE_TOO_LOW by {
      assert INVALID_ACTION[1] != NONCE_TOO_LOW[0];
    }
  }

  /** An unsupported action draws one nonce, sends nothing, is not retried,
      and fails with "Invalid action" (when the configuration is complete and
      the pending-count query, if asked, answers). */
  lemma UnsupportedActionFails(config: Config, tracker: Option<nat>, item: WorkItem, replies: Replies)
    requires config.Complete() && !Supported(item.action)
    requires tracker.Some? || replies.first.count.PendingCount?
    ensures var e := Execute(config, tracker, item, replies);
      e.outcome == Failure(INVALID_ACTION) && |e.draws| == 1 && e.sent == [] && e.resets == 0
  {
    InvalidActionIsNotStale();
  }

  /** Retry correctness: a first write rejected for a stale nonce, then a
      successful retry, succeeds after exactly one reset and two writes, the
      second at the chain's freshly reported count. */
  lemma StaleNonceRetrySucceeds(config: Config, tracker: Option<nat>, item: WorkItem,
                                replies: Replies, n: nat, h: string)
    requires config.Complete() && Supported(item.action)
    requires tracker.Some? || replies.first.count.PendingCount?
    requires replies.first.submission.Rejected?
    requires Contains(replies.first.submission.message, NONCE_TOO_LOW)
    requires replies.retry == Reply(PendingCount(n), Accepted(h))
    ensures var e := Execute(config, tracker, item, replies);
      e.outcome == Success(h) && e.resets == 1 && |e.sent| == 2 && e.sent[1] == n
      && e.tracker == Some(n)
  {
  }
}

=== FILE: game_rules.dfy ===
/** Rules from the game loop of components/game/BreakoutGame.tsx that do not
    involve bricks: the paddle width chosen for a level, and the removal of
    balls that fall out of the canvas. */
module GameRules {
  import opened Shapes

  const BASE_PADDLE_WIDTH: int := 100
  const PADDLE_SHRINK_PER_LEVEL: int := 5
  const MIN_PADDLE_WIDTH: int := 50

  /** `Math.max(100 - (level - 1) * 5, 50)`. */
  function PaddleWidth(level: int): (w: int)
    ensures w >= MIN_PADDLE_WIDTH
    ensures w >= BASE_PADDLE_WIDTH - (level - 1) * PADDLE_SHRINK_PER_LEVEL
    ensures level >= 1 ==> w <= BASE_PADDLE_WIDTH
    ensures w == MIN_PADDLE_WIDTH || w == BASE_PADDLE_WIDTH - (level - 1) * PADDLE_SHRINK_PER_LEVEL
  {
    var shrunk := BASE_PADDLE_WIDTH - (level - 1) * PADDLE_SHRINK_PER_LEVEL;
    if shrunk > MIN_PADDLE_WIDTH then shrunk else MIN_PADDLE_WIDTH
  }

  /** The paddle never widens as the level rises, and from level 11 on it
      stays at the minimum. */
  lemma PaddleWidthShrinks(l1: int, l2: int)
    requires l1 <= l2
    ensures PaddleWidth(l2) <= PaddleWidth(l1)
    ensures l2 >= 11 ==> PaddleWidth(l2) == MIN_PADDLE_WIDTH
  {
  }

  /** A ball has left the canvas through the bottom. */
  predicate Fallen(b: Ball, canvasHeight: real)
  {
    b.y + b.radius > canvasHeight
  }

  /** `ballsRef.current.filter(ball => ball.y + ball.radius <= canvas.height)`. */
  function RemoveFallen(balls: seq<Ball>, canvasHeight: real): (r: seq<Ball>)
    ensures |r| <= |balls|
    ensures forall b :: b in r <==> b in balls && !Fallen(b, canvasHeight)
  {
    if |balls| == 0 then []
    else
      assert forall b :: b in balls <==> b == balls[0] || b in balls[1..];
      (if Fallen(balls[0], canvasHeight) then [] else [balls[0]]) + RemoveFallen(balls[1..], canvasHeight)
  }

  /** The frame ends the game exactly when every ball has fallen. */
  function GameOver(balls: seq<Ball>, canvasHeight: real): (over: bool)
    ensures over <==> forall b :: b in balls ==> Fallen(b, canvasHeight)
  {
    var kept := RemoveFallen(balls, canvasHeight);
    assert kept != [] ==> kept[0] in kept;
    |kept| == 0
  }

  /** Surviving balls keep their order: the survivors form a subsequence. */
  lemma {:induction false} RemoveFallenKeepsOrder(balls: seq<Ball>, canvasHeight: real)
    ensures IsSubsequence(RemoveFallen(balls, canvasHeight), balls)
    decreases |balls|
  {
    if |balls| > 0 {
      RemoveFallenKeepsOrder(balls[1..], canvasHeight);
      var rest := RemoveFallen(balls[1..], canvasHeight);
      var r := RemoveFallen(balls, canvasHeight);
      if Fallen(balls[0], canvasHeight) {
        assert r == rest;
        if |rest| > 0 {
          assert rest[0] in rest;
          assert rest[0] != balls[0];
        }
      } else {
        assert r == [balls[0]] + rest && r[1..] == rest;
      }
    }
  }

  /** The filter works ball by ball: it maps concatenation to concatenation.
      With `RemoveFallenSnoc` this fixes the result, duplicates included. */
  lemma {:induction false} RemoveFallenDistributes(a: seq<Ball>, b: seq<Ball>, canvasHeight: real)
    ensures RemoveFallen(a + b, canvasHeight) == RemoveFallen(a, canvasHeight) + RemoveFallen(b, canvasHeight)
    decreases |a|
  {
    if |a| == 0 {
      assert a + b == b;
      assert RemoveFallen(a, canvasHeight) == [];
    } else {
      var head := if Fallen(a[0], canvasHeight) then [] else [a[0]];
      var ab := a + b;
      assert ab[0] == a[0];
      assert ab[1..] == a[1..] + b;
      RemoveFallenDistributes(a[1..], b, canvasHeight);
      var x, y := RemoveFallen(a[1..], canvasHeight), RemoveFallen(b, canvasHeight);
      calc {
        RemoveFallen(ab, canvasHeight);
        head + RemoveFallen(a[1..] + b, canvasHeight);
        head + (x + y);
        (head + x) + y;
        RemoveFallen(a, canvasHeight) + y;
      }
    }
  }

  /** Appending one ball appends it to the survivors exactly when it has not
      fallen; by induction on the list this fixes the result ball by ball. */
  lemma {:induction false} RemoveFallenSnoc(a: seq<Ball>, ball: Ball, canvasHeight: real)
    ensures RemoveFallen(a + [ball], canvasHeight)
      == RemoveFallen(a, canvasHeight) + (if Fallen(ball, canvasHeight) then [] else [ball])
  {
    RemoveFallenDistributes(a, [ball], canvasHeight);
    assert [ball][1..] == [];
  }

  /** `a` can be obtained from `b` by deleting elements. */
  predicate IsSubsequence(a: seq<Ball>, b: seq<Ball>)
    decreases |b|
  {
    if |a| == 0 then true
    else if |b| == 0 then false
    else if a[0] == b[0] then IsSubsequence(a[1..], b[1..])
    else IsSubsequence(a, b[1..])
  }
}

=== FILE: history_display.dfy ===
/** How the history view of components/TransactionList.tsx displays the
    records the relayer of services/transactionQueue/queue.ts produces.

    The view decides "pending" by the absence of a hash, but the relayer
    records a failure as status `failed` with an error and no hash. Every
    failed request therefore shows as pending, and the failed count stays at
    zero. `StatsByStatus` and `LabelByStatus` are the status-based versions. */
module HistoryDisplay {
  import opened Wrappers
  import opened Records
  import opened Executor
  import opened RelayQueue
  import opened TransactionView

  /** In any valid relayer state a record carries a hash only once it has
      completed; a failed record never has one. */
  lemma HashOnlyWhenCompleted(s: Relayer)
    requires Valid(s)
    ensures forall t :: t in s.transactions && t.txHash.Some? ==> t.status == Completed
    ensures forall t :: t in s.transactions && t.status == Failed ==> t.txHash.None?
  {
    forall t | t in s.transactions
      ensures (t.txHash.Some? ==> t.status == Completed) && (t.status == Failed ==> t.txHash.None?)
    {
      var k :| 0 <= k < |s.transactions| && s.transactions[k] == t;
      if k < |s.settled| {
        assert Reflects(t, s.settled[k].outcome);
      }
    }
  }

  lemma {:induction false} NoHashedFailures(txs: seq<Transaction>)
    requires forall t :: t in txs && t.status == Failed ==> t.txHash.None?
    ensures CountHashed(txs, Failed) == 0
  {
    if |txs| > 0 {
      assert forall t :: t in txs[1..] ==> t in txs;
      NoHashedFailures(txs[1..]);
    }
  }

  /** As written, the view of any relayer history reports no failures and
      labels no entry "failed", whatever happened on the chain. */
  lemma AsWrittenHidesFailures(s: Relayer)
    requires Valid(s)
    ensures ComputeStats(View(GetTransactions(s))).failed == 0
    ensures forall t :: t in View(GetTransactions(s)) ==> StatusLabel(t) != "failed"
  {
    var txs := GetTransactions(s);
    assert txs == s.transactions;
    HashOnlyWhenCompleted(s);
    ViewSpec(txs);
    NoHashedFailures(View(txs));
  }

  /** The smallest history that shows it: one `breakBrick` request that
      failed on a missing configuration is counted and labelled as pending. */
  lemma FailedRequestShownPending(config: Config, playerAddress: string, replies: Replies)
    requires !config.Complete()
    ensures var s := Finish(Enqueue(Init(), playerAddress, BREAK_BRICK), config, replies);
      var v := View(GetTransactions(s));
      && v == [Transaction(1, playerAddress, BREAK_BRICK, Failed, None, Some(CONFIG_MISSING))]
      && ComputeStats(v) == Stats(1, 0, 0, 1)
      && StatusLabel(v[0]) == "pending"
      && StatsByStatus(v) == Stats(0, 0, 1, 1)
      && LabelByStatus(v[0]) == "failed"
  {
    var s := Finish(Enqueue(Init(), playerAddress, BREAK_BRICK), config, replies);
    MissingConfigFails(config, playerAddress, BREAK_BRICK, replies);
    InitValid();
    EnqueueValid(Init(), playerAddress, BREAK_BRICK);
    FinishValid(Enqueue(Init(), playerAddress, BREAK_BRICK), config, replies);
    assert GetTransactions(s) == s.transactions;
    SingleFailureView(Transaction(1, playerAddress, BREAK_BRICK, Failed, None, Some(CONFIG_MISSING)));
  }

  lemma SingleFailureView(t: Transaction)
    requires t.action == BREAK_BRICK && t.status == Failed && t.txHash.None?
    ensures var v := View([t]);
      && v == [t]
      && ComputeStats(v) == Stats(1, 0, 0, 1)
      && StatusLabel(v[0]) == "pending"
      && StatsByStatus(v) == Stats(0, 0, 1, 1)
      && LabelByStatus(v[0]) == "failed"
  {
    SingleView(t);
    SingleStats(t);
  }

  lemma SingleView(t: Transaction)
    requires t.action == BREAK_BRICK
    ensures View([t]) == [t]
  {
    assert [t][1..] == [] && [t][..0] == [];
    assert BreakBrickOnly([t]) == [t];
    assert Dedup([t]) == [t];
    assert SortNewestFirst([t]) == [t];
  }

  lemma SingleStats(t: Transaction)
    requires t.status == Failed && t.txHash.None?
    ensures ComputeStats([t]) == Stats(1, 0, 0, 1)
    ensures StatsByStatus([t]) == Stats(0, 0, 1, 1)
  {
    assert [t][1..] == [];
  }

  // ----- the status-based display -----

  function CountStatus(txs: seq<Transaction>, st: Status): nat
  {
    CountWhere(txs, InStatus(st))
  }

  lemma {:induction false} StatusPartition(txs: seq<Transaction>)
    ensures CountStatus(txs, Pending) + CountStatus(txs, Completed) + CountStatus(txs, Failed) == |txs|
  {
    if |txs| > 0 {
      StatusPartition(txs[1..]);
    }
  }

  /** Statistics by recorded status: every entry is counted exactly once. */
  function StatsByStatus(txs: seq<Transaction>): (r: Stats)
    ensures r.total == |txs|
    ensures r.pending + r.completed + r.failed == r.total
    ensures r.pending == |set i: nat | i < |txs| && txs[i].status == Pending|
    ensures r.completed == |set i: nat | i < |txs| && txs[i].status == Completed|
    ensures r.failed == |set i: nat | i < |txs| && txs[i].status == Failed|
  {
    StatusPartition(txs);
    CountWhereIsPositions(txs, InStatus(Pending));
    CountWhereIsPositions(txs, InStatus(Completed));
    CountWhereIsPositions(txs, InStatus(Failed));
    assert Positions(txs, InStatus(Pending)) == set i: nat | i < |txs| && txs[i].status == Pending;
    assert Positions(txs, InStatus(Completed)) == set i: nat | i < |txs| && txs[i].status == Completed;
    assert Positions(txs, InStatus(Failed)) == set i: nat | i < |txs| && txs[i].status == Failed;
    Stats(CountStatus(txs, Pending), CountStatus(txs, Completed), CountStatus(txs, Failed), |txs|)
  }

  /** The label by recorded status. */
  function LabelByStatus(t: Transaction): (r: string)
    ensures r == "failed" <==> t.status == Failed
    ensures r == "pending" <==> t.status == Pending
  {
    StatusName(t.status)
  }

  lemma {:induction false} CountsAgreeOnRelayerRecords(txs: seq<Transaction>)
    requires forall t :: t in txs ==> (t.txHash.Some? <==> t.status == Completed)
    requires forall t :: t in txs ==> t.txHash != Some("")
    ensures CountHashed(txs, Completed) == CountStatus(txs, Completed)
    ensures CountNoHash(txs) == CountStatus(txs, Pending) + CountStatus(txs, Failed)
  {
    if |txs| > 0 {
      assert forall t :: t in txs[1..] ==> t in txs;
      CountsAgreeOnRelayerRecords(txs[1..]);
    }
  }

  /** On relayer histories whose hashes are non-empty, the status-based
      display agrees with the as-written one on completed entries and splits
      the as-written "pending" count into the genuinely pending and the failed. */
  lemma ByStatusRefinesAsWritten(s: Relayer)
    requires Valid(s)
    requires forall k :: 0 <= k < |s.settled| && s.settled[k].outcome.Success? ==>
               s.settled[k].outcome.txHash != ""
    ensures var v := View(GetTransactions(s));
      && StatsByStatus(v).completed == ComputeStats(v).completed
      && StatsByStatus(v).pending + StatsByStatus(v).failed == ComputeStats(v).pending
  {
    var txs := GetTransactions(s);
    var v := View(txs);
    assert txs == s.transactions;
    ViewSpec(txs);
    forall t | t in txs
      ensures (t.txHash.Some? <==> t.status == Completed) && t.txHash != Some("")
    {
      var k :| 0 <= k < |txs| && txs[k] == t;
      if k < |s.settled| {
        assert Reflects(t, s.settled[k].outcome);
      }
    }
    CountsAgreeOnRelayerRecords(v);
  }
}

=== FILE: nonce_tracker.dfy ===
/** The relayer's nonce tracker (`currentNonce` and `getNonce` in
    services/transactionQueue/queue.ts): adopt the chain's pending count once,
    then count up locally until something resets the tracker to `null`. */
module NonceTracker {
  import opened Wrappers

  /** The chain's answer to `getTransactionCount(address, "pending")`. */
  datatype CountReply = PendingCount(count: nat) | CountFailed(message: string)

  /** One nonce handed out: its value, and whether it was adopted from the
      chain (true) or obtained by incrementing the local value (false). */
  datatype Draw = Draw(value: nat, adopted: bool)

  /** What one `getNonce` call does: issue a nonce, or propagate the query's failure. */
  datatype NextResult = Issued(draw: Draw) | QueryFailed(message: string)

  /** `getNonce`. With an unknown tracker the chain is asked and its count is
      adopted; with a known one the chain is not consulted at all. */
  function Next(current: Option<nat>, reply: CountReply): (r: NextResult)
    ensures current.Some? ==> r == Issued(Draw(current.value + 1, false))
    ensures r.Issued? && r.draw.adopted <==> current.None? && reply.PendingCount?
    ensures r.Issued? && r.draw.adopted ==> r.draw.value == reply.count
    ensures r.QueryFailed? <==> current.None? && reply.CountFailed?
  {
    if current.None? then
      match reply
      case PendingCount(n) => Issued(Draw(n, true))
      case CountFailed(m) => QueryFailed(m)
    else
      Issued(Draw(current.value + 1, false))
  }

  /** The tracker value after a `getNonce` call. */
  function After(current: Option<nat>, r: NextResult): Option<nat>
  {
    match r
    case Issued(d) => Some(d.value)
    case QueryFailed(_) => current
  }

  /** The draw log starts with an adoption, and every non-adopted draw is the
      previous draw plus one. */
  predicate Consecutive(log: seq<Draw>)
  {
    && (|log| > 0 ==> log[0].adopted)
    && forall i :: 0 < i < |log| && !log[i].adopted ==> log[i].value == log[i - 1].value + 1
  }

  /** A known tracker value is the last nonce handed out. */
  predicate Tracks(current: Option<nat>, log: seq<Draw>)
  {
    current.Some? ==> |log| > 0 && log[|log| - 1].value == current.value
  }

  predicate Sound(current: Option<nat>, log: seq<Draw>)
  {
    Consecutive(log) && Tracks(current, log)
  }

  /** Every `getNonce` call keeps the log consecutive and the tracker in step with it. */
  lemma NextKeepsSound(current: Option<nat>, log: seq<Draw>, reply: CountReply)
    requires Sound(current, log)
    ensures var r := Next(current, reply);
      Sound(After(current, r), if r.Issued? then log + [r.draw] else log)
  {
    var r := Next(current, reply);
    if r.Issued? {
      var log' := log + [r.draw];
      assert log'[|log'| - 1] == r.draw;
      forall i | 0 < i < |log'| && !log'[i].adopted
        ensures log'[i].value == log'[i - 1].value + 1
      {
        if i < |log| {
          assert log'[i] == log[i] && log'[i - 1] == log[i - 1];
        }
      }
    }
  }

  /** A reset (`currentNonce = null`) never breaks soundness. */
  lemma ResetKeepsSound(current: Option<nat>, log: seq<Draw>)
    requires Consecutive(log)
    ensures Sound(None, log)
  {
  }

  /** No adoption strictly after `i` up to and including `j`. */
  predicate NoResetBetween(log: seq<Draw>, i: nat, j: nat)
    requires i <= j < |log|
  {
    forall k :: i < k <= j ==> !log[k].adopted
  }

  /** Between resets, issued nonces are consecutive: j - i draws after draw i,
      with no adoption in between, the nonce is exactly j - i higher. */
  lemma {:induction false} ConsecutiveRun(log: seq<Draw>, i: nat, j: nat)
    requires Consecutive(log)
    requires i <= j < |log|
    requires NoResetBetween(log, i, j)
    ensures log[j].value == log[i].value + (j - i)
    decreases j - i
  {
    if i < j {
      assert !log[j].adopted;
      ConsecutiveRun(log, i, j - 1);
    }
  }
}

=== FILE: particles.dfy ===
/** The particle bursts shown when a brick breaks
    (components/game/game_utils/createParticles.ts and drawParticles.ts). */
module Particles {

  const BURST_SIZE: nat := 20
  const START_LIFE: int := 50

  datatype Particle = Particle(x: real, y: real, dx: real, dy: real, life: int)

  /** One frame of a live particle: it moves by its velocity and loses one life. */
  function Age(p: Particle): Particle
  {
    p.(x := p.x + p.dx, y := p.y + p.dy, life := p.life - 1)
  }

  /** The reference for one frame: live particles age in place, the others go. */
  function Tick(ps: seq<Particle>): (r: seq<Particle>)
    ensures |r| <= |ps|
  {
    if |ps| == 0 then []
    else (if ps[0].life > 0 then [Age(ps[0])] else []) + Tick(ps[1..])
  }

  /** How many particles are still alive. */
  function CountLive(ps: seq<Particle>): nat
  {
    if |ps| == 0 then 0 else (if ps[0].life > 0 then 1 else 0) + CountLive(ps[1..])
  }

  lemma {:induction false} TickSnoc(ps: seq<Particle>, p: Particle)
    ensures Tick(ps + [p]) == Tick(ps) + (if p.life > 0 then [Age(p)] else [])
    decreases |ps|
  {
    if |ps| == 0 {
      assert ps + [p] == [p];
      assert [p][1..] == [];
    } else {
      assert (ps + [p])[1..] == ps[1..] + [p];
      TickSnoc(ps[1..], p);
    }
  }

  /** `drawParticles`: with no canvas it returns at once; otherwise it walks
      the list, aging live particles and splicing dead ones out (`splice(i, 1)`
      then `i--`, so the index stays put for the element that slid down). */
  method DrawParticles(hasCanvas: bool, particles: seq<Particle>) returns (ps: seq<Particle>)
    ensures !hasCanvas ==> ps == particles
    ensures hasCanvas ==> ps == Tick(particles)
  {
    ps := particles;
    if !hasCanvas {
      return;
    }
    var i := 0;
    ghost var j := 0;
    while i < |ps|
      invariant 0 <= i <= |ps| && 0 <= j <= |particles|
      invariant ps[..i] == Tick(particles[..j])
      invariant ps[i..] == particles[j..]
      decreases |ps| - i
    {
      assert ps[i] == particles[j];
      assert particles[..j + 1] == particles[..j] + [particles[j]];
      TickSnoc(particles[..j], particles[j]);
      if ps[i].life > 0 {
        ps := ps[i := Age(ps[i])];
        i := i + 1;
      } else {
        ps := ps[..i] + ps[i + 1..];
      }
      j := j + 1;
    }
    assert particles[..j] == particles;
  }

  /** One frame keeps exactly the live particles, each aged by one frame and
      in its original relative order: the k-th live particle of the input
      becomes the k-th particle of the output. */
  lemma {:induction false} TickSpec(ps: seq<Particle>)
    ensures |Tick(ps)| == CountLive(ps)
    ensures forall i :: 0 <= i < |ps| && ps[i].life > 0 ==>
      CountLive(ps[..i]) < |Tick(ps)| && Tick(ps)[CountLive(ps[..i])] == Age(ps[i])
    decreases |ps|
  {
    if |ps| > 0 {
      TickSpec(ps[1..]);
      assert Tick(ps) == (if ps[0].life > 0 then [Age(ps[0])] else []) + Tick(ps[1..]);
      forall i | 0 <= i < |ps| && ps[i].life > 0
        ensures CountLive(ps[..i]) < |Tick(ps)| && Tick(ps)[CountLive(ps[..i])] == Age(ps[i])
      {
        if i > 0 {
          assert ps[..i][1..] == ps[1..][..i - 1];
          assert ps[1..][i - 1] == ps[i];
        }
      }
    }
  }

  /** No particle that was dead at the start of a frame survives it, and no
      survivor has negative life. */
  lemma {:induction false} TickDropsDead(ps: seq<Particle>)
    ensures forall q :: q in Tick(ps) ==> q.life >= 0
    ensures forall q :: q in Tick(ps) ==> exists p :: p in ps && p.life > 0 && q == Age(p)
    decreases |ps|
  {
    if |ps| > 0 {
      TickDropsDead(ps[1..]);
      assert forall p :: p in ps[1..] ==> p in ps;
    }
  }

  /** A particle with one life left survives this frame at life 0 and is
      removed in the next. */
  lemma LastLifeTakesTwoFrames(p: Particle)
    requires p.life == 1
    ensures Tick([p]) == [Age(p)] && Age(p).life == 0
    ensures Tick(Tick([p])) == []
  {
    assert [p][1..] == [];
    assert [Age(p)][1..] == [];
  }

  /** `createParticles`: 20 particles at (x, y) with life 50 and velocities
      `(random - 0.5) * 2`, appended after the existing ones. `draws` are the
      40 values `Math.random` returns, dx then dy for each particle. */
  function CreateParticles(x: real, y: real, particles: seq<Particle>, draws: seq<real>): (r: seq<Particle>)
    requires |draws| == 2 * BURST_SIZE
    requires forall k :: 0 <= k < |draws| ==> 0.0 <= draws[k] < 1.0
    ensures |r| == |particles| + BURST_SIZE
    ensures r[..|particles|] == particles
    ensures forall k :: |particles| <= k < |r| ==>
      && r[k].x == x && r[k].y == y && r[k].life == START_LIFE
      && r[k].dx == (draws[2 * (k - |particles|)] - 0.5) * 2.0
      && r[k].dy == (draws[2 * (k - |particles|) + 1] - 0.5) * 2.0
      && -1.0 <= r[k].dx < 1.0 && -1.0 <= r[k].dy < 1.0
  {
    particles + seq(BURST_SIZE, i requires 0 <= i < BURST_SIZE =>
      Particle(x, y, (draws[2 * i] - 0.5) * 2.0, (draws[2 * i + 1] - 0.5) * 2.0, START_LIFE))
  }

  /** `n` frames of `drawParticles`. */
  function TickN(ps: seq<Particle>, n: nat): seq<Particle>
    decreases n
  {
    if n == 0 then ps else TickN(Tick(ps), n - 1)
  }

  lemma {:induction false} TickNEmpty(n: nat)
    ensures TickN([], n) == []
  {
    if n > 0 {
      assert Tick([]) == [];
      TickNEmpty(n - 1);
    }
  }

  /** Particles that all have the same life move together: while alive they
      all age, and once that life has run out they all go at once. */
  lemma {:induction false} TickUniform(ps: seq<Particle>, life: int)
    requires forall k :: 0 <= k < |ps| ==> ps[k].life == life
    ensures life > 0 ==> |Tick(ps)| == |ps| && forall k :: 0 <= k < |ps| ==> Tick(ps)[k] == Age(ps[k])
    ensures life <= 0 ==> Tick(ps) == []
    decreases |ps|
  {
    if |ps| > 0 {
      TickUniform(ps[1..], life);
    }
  }

  /** n frames of a group that shares one life `life >= 0`: for n <= life all
      particles remain, with life - n; from n = life + 1 on none remains. */
  lemma {:induction false} TickNUniform(ps: seq<Particle>, life: int, n: nat)
    requires life >= 0
    requires forall k :: 0 <= k < |ps| ==> ps[k].life == life
    ensures n <= life ==>
      |TickN(ps, n)| == |ps| && forall k :: 0 <= k < |ps| ==> TickN(ps, n)[k].life == life - n
    ensures n > life ==> TickN(ps, n) == []
    decreases n
  {
    if n > 0 {
      TickUniform(ps, life);
      if life > 0 {
        TickNUniform(Tick(ps), life - 1, n - 1);
      } else {
        TickNEmpty(n - 1);
      }
    }
  }

  /** A fresh burst is on screen for exactly START_LIFE + 1 frames: all 20
      particles survive the first START_LIFE frames of `drawParticles`, and
      the next frame removes all of them. */
  lemma BurstLifetime(x: real, y: real, draws: seq<real>, n: nat)
    requires |draws| == 2 * BURST_SIZE
    requires forall k :: 0 <= k < |draws| ==> 0.0 <= draws[k] < 1.0
    ensures var burst := CreateParticles(x, y, [], draws);
      && (n <= START_LIFE ==>
            && |TickN(burst, n)| == BURST_SIZE
            && forall k :: 0 <= k < BURST_SIZE ==> TickN(burst, n)[k].life == START_LIFE - n)
      && (n > START_LIFE ==> TickN(burst, n) == [])
  {
    TickNUniform(CreateParticles(x, y, [], draws), START_LIFE, n);
  }
}

=== FILE: power_ups.dfy ===
/** Falling power-ups (components/game/game_utils/powerUps.ts): creation,
    the fall, the catch by the paddle, and the effect while active. */
module PowerUps {
  import opened Wrappers
  import opened Shapes

  const FALL_SPEED: real := 2.0
  const SIZE: real := 20.0
  const DURATION_MS: int := 10000
  /** The wide-paddle factor, 1.5. */
  const WIDEN: real := 3.0 / 2.0

  datatype PowerUp = PowerUp(
    kind: PowerUpKind,
    x: real,
    y: real,
    dy: real,
    width: real,
    height: real,
    active: bool,
    duration: int,
    startTime: Option<int>)

  /** `createPowerUp`: a fresh, falling, not yet started 20 x 20 power-up. */
  function CreatePowerUp(x: real, y: real, kind: PowerUpKind): (p: PowerUp)
    ensures p.x == x && p.y == y && p.kind == kind
    ensures p.active && p.dy == FALL_SPEED && p.startTime.None?
    ensures p.width == SIZE && p.height == SIZE && p.duration == DURATION_MS
  {
    PowerUp(kind, x, y, FALL_SPEED, SIZE, SIZE, true, DURATION_MS, None)
  }

  /** `updatePowerUp`: an active power-up falls by `dy`; an inactive one stays. */
  function UpdatePowerUp(p: PowerUp): (r: PowerUp)
    ensures !p.active ==> r == p
    ensures p.active ==> r == p.(y := p.y + p.dy)
  {
    if !p.active then p else p.(y := p.y + p.dy)
  }

  /** Open intervals (a, a + aw) and (b, b + bw) overlap. */
  predicate OpenOverlap(a: real, aw: real, b: real, bw: real)
  {
    a < b + bw && a + aw > b
  }

  /** `checkPowerUpCollision`. */
  function Collides(p: PowerUp, paddle: Paddle): (r: bool)
    ensures !p.active ==> !r
    ensures r <==> p.active && OpenOverlap(p.x, p.width, paddle.x, paddle.width)
                           && OpenOverlap(p.y, p.height, paddle.y, paddle.height)
  {
    if !p.active then false
    else
      && p.x < paddle.x + paddle.width
      && p.x + p.width > paddle.x
      && p.y < paddle.y + paddle.height
      && p.y + p.height > paddle.y
  }

  /** `t` lies strictly inside (a, a + aw). */
  predicate Within(t: real, a: real, aw: real)
  {
    a < t < a + aw
  }

  /** For intervals of positive width, overlapping means sharing an interior
      point: touching end to end is not overlapping. */
  lemma OpenOverlapIffCommonPoint(a: real, aw: real, b: real, bw: real)
    requires aw > 0.0 && bw > 0.0
    ensures OpenOverlap(a, aw, b, bw) <==> exists t :: Within(t, a, aw) && Within(t, b, bw)
  {
    if OpenOverlap(a, aw, b, bw) {
      var lo := if a < b then b else a;
      var hi := if a + aw < b + bw then a + aw else b + bw;
      var t := (lo + hi) / 2.0;
      assert Within(t, a, aw) && Within(t, b, bw);
    }
  }

  /** An active power-up is caught exactly when its square and the paddle
      share an interior point, so shapes that only touch do not collide. */
  lemma CollidesIffInteriorsMeet(p: PowerUp, paddle: Paddle)
    requires p.active
    requires p.width > 0.0 && p.height > 0.0 && paddle.width > 0.0 && paddle.height > 0.0
    ensures Collides(p, paddle) <==>
      && (exists u :: Within(u, p.x, p.width) && Within(u, paddle.x, paddle.width))
      && (exists v :: Within(v, p.y, p.height) && Within(v, paddle.y, paddle.height))
  {
    OpenOverlapIffCommonPoint(p.x, p.width, paddle.x, paddle.width);
    OpenOverlapIffCommonPoint(p.y, p.height, paddle.y, paddle.height);
  }

  /** The three things `activatePowerUp` / `deactivatePowerUp` mutate. */
  datatype Effect = Effect(powerUp: PowerUp, paddle: Paddle, balls: seq<Ball>)

  /** `activatePowerUp`. A multi-ball copies the first ball with its
      horizontal direction reversed; the source reads `balls[0]`, so it needs
      one ball to copy. */
  function Activate(p: PowerUp, paddle: Paddle, balls: seq<Ball>, now: int): (e: Effect)
    requires p.kind == MultiBall ==> |balls| > 0
    ensures !e.powerUp.active && e.powerUp.startTime == Some(now)
    ensures e.powerUp == p.(active := false, startTime := Some(now))
    ensures p.kind == MultiBall ==>
      && |e.balls| == |balls| + 1 && e.balls[..|balls|] == balls
      && e.balls[|balls|] == balls[0].(dx := -balls[0].dx)
      && e.paddle == paddle
    ensures p.kind == WidePaddle ==>
      e.balls == balls && e.paddle == paddle.(width := paddle.width * WIDEN)
  {
    var p' := p.(active := false, startTime := Some(now));
    match p.kind
    case MultiBall => Effect(p', paddle, balls + [balls[0].(dx := -balls[0].dx)])
    case WidePaddle => Effect(p', paddle.(width := paddle.width * WIDEN), balls)
  }

  /** `deactivatePowerUp`: drop every ball but the first, or shrink the paddle back. */
  function Deactivate(p: PowerUp, paddle: Paddle, balls: seq<Ball>): (e: Effect)
    ensures e.powerUp == p
    ensures p.kind == MultiBall ==>
      && e.paddle == paddle && |e.balls| <= 1
      && (|balls| > 0 ==> e.balls == [balls[0]])
      && (|balls| == 0 ==> e.balls == [])
    ensures p.kind == WidePaddle ==> e.balls == balls && e.paddle == paddle.(width := paddle.width / WIDEN)
  {
    match p.kind
    case MultiBall => Effect(p, paddle, if |balls| == 0 then [] else balls[..1])
    case WidePaddle => Effect(p, paddle.(width := paddle.width / WIDEN), balls)
  }

  /** `n` frames of `updatePowerUp`. */
  function UpdateN(p: PowerUp, n: nat): PowerUp
    decreases n
  {
    if n == 0 then p else UpdateN(UpdatePowerUp(p), n - 1)
  }

  /** An active power-up falls at constant speed: after n frames it is n * dy
      lower and nothing else about it has changed. */
  lemma {:induction false} FallsSteadily(p: PowerUp, n: nat)
    requires p.active
    ensures UpdateN(p, n) == p.(y := p.y + (n as real) * p.dy)
    decreases n
  {
    if n > 0 {
      var q := UpdatePowerUp(p);
      FallsSteadily(q, n - 1);
      assert q.y + ((n - 1) as real) * q.dy == p.y + (n as real) * p.dy by {
        assert (n as real) * p.dy == ((n - 1) as real) * p.dy + p.dy;
      }
    }
  }

  /** A caught power-up stops: once activated it no longer falls, however
      many frames pass, and it can never be caught again. */
  lemma {:induction false} ActivatedStaysPut(p: PowerUp, paddle: Paddle, balls: seq<Ball>, now: int, n: nat, paddle': Paddle)
    requires p.kind == MultiBall ==> |balls| > 0
    ensures var q := Activate(p, paddle, balls, now).powerUp;
      UpdateN(q, n) == q && !Collides(UpdateN(q, n), paddle')
    decreases n
  {
    if n > 0 {
      ActivatedStaysPut(p, paddle, balls, now, n - 1, paddle');
      var q := Activate(p, paddle, balls, now).powerUp;
      assert UpdatePowerUp(q) == q;
      assert UpdateN(q, n) == UpdateN(q, n - 1);
    }
  }

  /** Over the reals, a wide paddle that expires gets its width back exactly. */
  lemma WidePaddleRoundTrip(p: PowerUp, paddle: Paddle, balls: seq<Ball>, now: int)
    requires p.kind == WidePaddle
    ensures var a := Activate(p, paddle, balls, now);
      Deactivate(a.powerUp, a.paddle, a.balls) == Effect(a.powerUp, paddle, balls)
  {
  }

  /** A multi-ball that expires leaves only the original first ball, however
      many balls were in play before it was caught. */
  lemma MultiBallRoundTrip(p: PowerUp, paddle: Paddle, balls: seq<Ball>, now: int)
    requires p.kind == MultiBall && |balls| > 0
    ensures var a := Activate(p, paddle, balls, now);
      Deactivate(a.powerUp, a.paddle, a.balls) == Effect(a.powerUp, paddle, [balls[0]])
  {
  }
}

=== FILE: records.dfy ===
/** The relayer's history log (services/transactionQueue/queue.ts): the
    `Transaction` record, the partial-update merge, and the store operations. */
module Records {
  import opened Wrappers

  const BREAK_BRICK: string := "breakBrick"
  const START_GAME: string := "startGame"

  datatype Status = Pending | Completed | Failed

  /** One relay request's history entry. `txHash` and `error` are the optional
      fields of the source's interface; `action` is kept as the string the
      caller sent, since nothing on the way in checks it against the two names. */
  datatype Transaction = Transaction(
    id: int,
    playerAddress: string,
    action: string,
    status: Status,
    txHash: Option<string>,
    error: Option<string>)

  /** A `Partial<Transaction>` restricted to the fields the queue ever writes. */
  datatype Patch = Patch(status: Option<Status>, txHash: Option<string>, error: Option<string>)

  /** JavaScript truthiness of the optional hash: present and non-empty. */
  predicate HasHash(t: Transaction)
  {
    t.txHash.Some? && t.txHash.value != ""
  }

  /** `{ ...t, ...p }`: every field the patch carries overrides, the rest are kept. */
  function Merge(t: Transaction, p: Patch): (r: Transaction)
    ensures r.id == t.id && r.playerAddress == t.playerAddress && r.action == t.action
    ensures p.status.None? ==> r.status == t.status
    ensures p.txHash.None? ==> r.txHash == t.txHash
    ensures p.error.None? ==> r.error == t.error
    ensures p.status.Some? ==> r.status == p.status.value
    ensures p.txHash.Some? ==> r.txHash == p.txHash
    ensures p.error.Some? ==> r.error == p.error
    ensures p == Patch(None, None, None) ==> r == t
  {
    t.(status := p.status.GetOr(t.status),
       txHash := if p.txHash.Some? then p.txHash else t.txHash,
       error := if p.error.Some? then p.error else t.error)
  }

  /** `transactions.findIndex(tx => tx.id === id)`: the first index holding `id`. */
  function FindIndex(txs: seq<Transaction>, id: int): (r: Option<nat>)
    ensures r.None? <==> forall k :: 0 <= k < |txs| ==> txs[k].id != id
    ensures r.Some? ==> r.value < |txs| && txs[r.value].id == id
    ensures r.Some? ==> forall k :: 0 <= k < r.value ==> txs[k].id != id
  {
    if |txs| == 0 then None
    else if txs[0].id == id then Some(0)
    else match FindIndex(txs[1..], id)
      case None => None
      case Some(k) => Some(k + 1)
  }

  /** `updateTransaction`: merge `p` into the record with the given id; a no-op
      for an id that is not in the log. */
  function UpdateTransaction(txs: seq<Transaction>, id: int, p: Patch): (r: seq<Transaction>)
    ensures |r| == |txs|
    ensures (forall k :: 0 <= k < |txs| ==> txs[k].id != id) ==> r == txs
    ensures forall k :: 0 <= k < |txs| && txs[k].id != id ==> r[k] == txs[k]
    ensures forall k :: 0 <= k < |txs| ==> r[k].id == txs[k].id
    ensures UniqueIds(txs) ==>
      forall k :: 0 <= k < |txs| && txs[k].id == id ==> r[k] == Merge(txs[k], p)
  {
    match FindIndex(txs, id)
    case None => txs
    case Some(k) => txs[k := Merge(txs[k], p)]
  }

  predicate UniqueIds(txs: seq<Transaction>)
  {
    forall i, j :: 0 <= i < j < |txs| ==> txs[i].id != txs[j].id
  }

  /** The log's shape: the k-th record carries id k + 1. */
  predicate SequentialIds(txs: seq<Transaction>)
  {
    forall k :: 0 <= k < |txs| ==> txs[k].id == k + 1
  }

  lemma SequentialIdsAreUnique(txs: seq<Transaction>)
    requires SequentialIds(txs)
    ensures UniqueIds(txs)
  {
  }

  /** The record `addToQueue` appends: pending, no hash, no error. */
  function NewRecord(id: int, playerAddress: string, action: string): (r: Transaction)
    ensures r.status == Pending && r.txHash.None? && r.error.None? && !HasHash(r)
    ensures r.id == id && r.playerAddress == playerAddress && r.action == action
  {
    Transaction(id, playerAddress, action, Pending, None, None)
  }

  /** `addToQueue`'s first half: the new record gets the next id, `length + 1`. */
  function Append(txs: seq<Transaction>, playerAddress: string, action: string): (r: seq<Transaction>)
    ensures |r| == |txs| + 1 && r[..|txs|] == txs
    ensures r[|txs|] == NewRecord(|txs| + 1, playerAddress, action)
    ensures SequentialIds(txs) ==> SequentialIds(r)
  {
    txs + [NewRecord(|txs| + 1, playerAddress, action)]
  }
}

=== FILE: relay_queue.dfy ===
/** The serial relayer queue of services/transactionQueue/queue.ts as an
    explicit state machine. Its module state (`transactions`, `queue`,
    `isProcessing`, `currentNonce`) is one `Relayer` value; the three things
    that happen to it are transitions:

    - `Enqueue`: `addToQueue`, including the drain attempt it triggers;
    - `Drain`: `processQueue` up to and including `queue.shift()` (the flag
      check and setting `isProcessing`);
    - `Finish`: the rest of `processQueue` for the item in flight, run against
      the chain oracle, then the `finally` block that clears the flag and
      drains again.

    In the source part of what `Finish` does runs synchronously inside the
    call that drained: the configuration check (with the whole failure path
    when it fails) and, with a known tracker, the `currentNonce++` of
    `getNonce`. The model lets an `Enqueue` come between the drain and
    `Finish` in every case, which admits more interleavings than the source,
    never fewer. An `Enqueue` appends a record and a queue item and touches
    neither the nonce nor the in-flight record, so it commutes with the
    executor, and running the executor as one step loses no behaviour. Four logs that the source keeps only implicitly are
    explicit fields: the ids in the order they started, the settlements in the
    order they happened, every nonce drawn, and every nonce handed to the chain. */
module RelayQueue {
  import opened Wrappers
  import opened Records
  import opened NonceTracker
  import opened Executor

  /** One caller's promise settling. */
  datatype Settlement = Settlement(id: int, outcome: Outcome)

  datatype Relayer = Relayer(
    transactions: seq<Transaction>,
    queue: seq<WorkItem>,
    isProcessing: bool,
    current: Option<WorkItem>,
    currentNonce: Option<nat>,
    started: seq<int>,
    settled: seq<Settlement>,
    nonceLog: seq<Draw>,
    sent: seq<nat>)

  /** The state the module starts in. */
  function Init(): Relayer
  {
    Relayer([], [], false, None, None, [], [], [], [])
  }

  /** `processQueue` up to and including `queue.shift()`: a no-op while an
      item is in flight or when nothing is queued; otherwise take the head. */
  function Drain(s: Relayer): (r: Relayer)
    ensures s.isProcessing || s.queue == [] ==> r == s
    ensures !s.isProcessing && s.queue != [] ==>
      && r.isProcessing && r.current == Some(s.queue[0])
      && r.queue == s.queue[1..]
      && r.started == s.started + [s.queue[0].id]
    ensures r.transactions == s.transactions && r.currentNonce == s.currentNonce
    ensures r.settled == s.settled && r.nonceLog == s.nonceLog && r.sent == s.sent
  {
    if s.isProcessing || |s.queue| == 0 then s
    else
      s.(isProcessing := true, current := Some(s.queue[0]), queue := s.queue[1..],
         started := s.started + [s.queue[0].id])
  }

  /** `addToQueue`: record first (id = length + 1, pending), then the work
      item, then a drain attempt. */
  function Enqueue(s: Relayer, playerAddress: string, action: string): (r: Relayer)
    ensures |r.transactions| == |s.transactions| + 1
    ensures r.transactions[..|s.transactions|] == s.transactions
    ensures r.transactions[|s.transactions|] == NewRecord(|s.transactions| + 1, playerAddress, action)
    ensures r.currentNonce == s.currentNonce && r.settled == s.settled && r.sent == s.sent
  {
    var id := |s.transactions| + 1;
    Drain(s.(transactions := Append(s.transactions, playerAddress, action),
             queue := s.queue + [WorkItem(playerAddress, action, id)]))
  }

  /** The update `processQueue` applies to the record of a settled item. */
  function PatchFor(o: Outcome): (p: Patch)
  {
    match o
    case Success(h) => Patch(Some(Completed), Some(h), None)
    case Failure(m) => Patch(Some(Failed), None, Some(m))
  }

  /** The record of an item whose promise settled with `o`: completed with the
      hash, or failed with the message and no hash. */
  predicate Reflects(t: Transaction, o: Outcome)
  {
    match o
    case Success(h) => t.status == Completed && t.txHash == Some(h) && t.error.None?
    case Failure(m) => t.status == Failed && t.error == Some(m) && t.txHash.None?
  }

  /** The in-flight item runs to completion, its record and promise settle,
      the flag is cleared, and the queue drains again. */
  function Finish(s: Relayer, config: Config, replies: Replies): (r: Relayer)
    ensures s.current.None? ==> r == s
    ensures s.current.Some? ==>
      && |r.settled| == |s.settled| + 1
      && r.settled[..|s.settled|] == s.settled
      && r.settled[|s.settled|].id == s.current.value.id
      && (r.isProcessing <==> s.queue != [])
    // the promise settles, and the nonce state moves, exactly as the executor decides
    ensures s.current.Some? ==>
      var e := Execute(config, s.currentNonce, s.current.value, replies);
      && r.settled[|s.settled|].outcome == e.outcome
      && r.currentNonce == e.tracker
      && r.nonceLog == s.nonceLog + e.draws
      && r.sent == s.sent + e.sent
    ensures |r.transactions| == |s.transactions|
  {
    match s.current
    case None => s
    case Some(item) => Drain(Settle(s, item, Execute(config, s.currentNonce, item, replies)))
  }

  /** The bookkeeping after an execution: update the record, settle the
      promise, log the nonces, clear `isProcessing`. */
  function Settle(s: Relayer, item: WorkItem, e: Execution): Relayer
  {
    s.(transactions := UpdateTransaction(s.transactions, item.id, PatchFor(e.outcome)),
       currentNonce := e.tracker,
       nonceLog := s.nonceLog + e.draws,
       sent := s.sent + e.sent,
       settled := s.settled + [Settlement(item.id, e.outcome)],
       isProcessing := false,
       current := None)
  }

  /** `getTransactions`: an element-wise copy of the log in insertion order;
      in a reachable state its k-th entry carries id k + 1. */
  function GetTransactions(s: Relayer): (r: seq<Transaction>)
    ensures |r| == |s.transactions|
    ensures forall k :: 0 <= k < |r| ==> r[k] == s.transactions[k]
    ensures Valid(s) ==> forall k :: 0 <= k < |r| ==> r[k].id == k + 1
  {
    s.transactions[..]
  }

  // ----- invariants -----

  /** The work item the k-th record stands for. */
  function ItemFor(t: Transaction): WorkItem
  {
    WorkItem(t.playerAddress, t.action, t.id)
  }

  /** Items started in enqueue order: the k-th start was id k + 1. */
  predicate FifoStarts(s: Relayer)
  {
    forall k :: 0 <= k < |s.started| ==> s.started[k] == k + 1
  }

  /** The queue holds exactly the records not yet started, in id order. */
  predicate QueueIsSuffix(s: Relayer)
  {
    && |s.started| + |s.queue| == |s.transactions|
    && forall j :: 0 <= j < |s.queue| ==> s.queue[j] == ItemFor(s.transactions[|s.started| + j])
  }

  /** At most one item is in flight: it is the last one started, and every
      earlier one has settled. When nothing is in flight, nothing is waiting. */
  predicate SingleFlight(s: Relayer)
  {
    && (s.isProcessing <==> s.current.Some?)
    && (s.current.Some? ==>
          && 1 <= |s.started| <= |s.transactions| && |s.settled| == |s.started| - 1
          && s.current.value == ItemFor(s.transactions[|s.started| - 1]))
    && (!s.isProcessing ==> |s.settled| == |s.started| && s.queue == [])
  }

  /** Promises settle once each, in id order, and each settled item's record
      shows its outcome; every other record is still the pristine pending one. */
  predicate SettledInOrder(s: Relayer)
  {
    && |s.settled| <= |s.transactions|
    && (forall k :: 0 <= k < |s.settled| ==>
          s.settled[k].id == k + 1 && Reflects(s.transactions[k], s.settled[k].outcome))
    && (forall k :: |s.settled| <= k < |s.transactions| ==>
          s.transactions[k].status == Pending && s.transactions[k].txHash.None?
          && s.transactions[k].error.None?)
  }

  predicate Valid(s: Relayer)
  {
    && SequentialIds(s.transactions)
    && FifoStarts(s)
    && QueueIsSuffix(s)
    && SingleFlight(s)
    && SettledInOrder(s)
    && Sound(s.currentNonce, s.nonceLog)
  }

  lemma InitValid()
    ensures Valid(Init())
  {
  }

  lemma {:induction false} EnqueueValid(s: Relayer, playerAddress: string, action: string)
    requires Valid(s)
    ensures Valid(Enqueue(s, playerAddress, action))
  {
    var id := |s.transactions| + 1;
    var s1 := s.(transactions := Append(s.transactions, playerAddress, action),
                 queue := s.queue + [WorkItem(playerAddress, action, id)]);
    assert QueueIsSuffix(s1) by {
      forall j | 0 <= j < |s1.queue|
        ensures s1.queue[j] == ItemFor(s1.transactions[|s1.started| + j])
      {
        if j < |s.queue| {
          assert s1.queue[j] == s.queue[j];
          assert s1.transactions[|s.started| + j] == s.transactions[|s.started| + j];
        }
      }
    }
    if s.current.Some? {
      assert s1.transactions[|s.started| - 1] == s.transactions[|s.started| - 1];
    }
    assert SettledInOrder(s1) by {
      forall k | 0 <= k < |s1.settled|
        ensures Reflects(s1.transactions[k], s1.settled[k].outcome)
      {
        assert s1.transactions[k] == s.transactions[k];
      }
    }
    DrainValid(s1);
  }

  /** `Valid` except that items may be waiting while nothing is in flight:
      the state just before a drain attempt. */
  predicate ValidBeforeDrain(s: Relayer)
  {
    && SequentialIds(s.transactions) && FifoStarts(s) && QueueIsSuffix(s)
    && SettledInOrder(s) && Sound(s.currentNonce, s.nonceLog)
    && (s.isProcessing <==> s.current.Some?)
    && (s.current.Some? ==>
          && 1 <= |s.started| <= |s.transactions| && |s.settled| == |s.started| - 1
          && s.current.value == ItemFor(s.transactions[|s.started| - 1]))
    && (!s.isProcessing ==> |s.settled| == |s.started|)
  }

  /** A drain attempt restores "nothing waits while idle". */
  lemma DrainValid(s: Relayer)
    requires ValidBeforeDrain(s)
    ensures Valid(Drain(s))
  {
    if !s.isProcessing && |s.queue| > 0 {
      var r := Drain(s);
      assert s.queue[0] == ItemFor(s.transactions[|s.started|]);
      assert s.transactions[|s.started|].id == |s.started| + 1;
      forall j | 0 <= j < |r.queue|
        ensures r.queue[j] == ItemFor(r.transactions[|r.started| + j])
      {
        assert r.queue[j] == s.queue[j + 1];
      }
    }
  }

  lemma FinishValid(s: Relayer, config: Config, replies: Replies)
    requires Valid(s)
    ensures Valid(Finish(s, config, replies))
  {
    if s.current.Some? {
      var e := Execute(config, s.currentNonce, s.current.value, replies);
      ExecuteKeepsNonceSound(config, s.currentNonce, s.nonceLog, s.current.value, replies);
      SettleValid(s, e);
      DrainValid(Settle(s, s.current.value, e));
    }
  }

  /** Settling the in-flight item touches only its own record. */
  lemma SettleRecords(s: Relayer, e: Execution)
    requires Valid(s) && s.current.Some?
    ensures var txs := Settle(s, s.current.value, e).transactions;
      && |txs| == |s.transactions|
      && txs[|s.settled|] == Merge(s.transactions[|s.settled|], PatchFor(e.outcome))
      && forall i :: 0 <= i < |txs| && i != |s.settled| ==> txs[i] == s.transactions[i]
  {
    SequentialIdsAreUnique(s.transactions);
  }

  lemma SettleValid(s: Relayer, e: Execution)
    requires Valid(s) && s.current.Some?
    requires Sound(e.tracker, s.nonceLog + e.draws)
    ensures ValidBeforeDrain(Settle(s, s.current.value, e))
  {
    var s1 := Settle(s, s.current.value, e);
    var k := |s.settled|;
    SettleRecords(s, e);
    assert SettledInOrder(s1) by {
      forall i | 0 <= i < |s1.settled|
        ensures s1.settled[i].id == i + 1 && Reflects(s1.transactions[i], s1.settled[i].outcome)
      {
        if i < k {
          assert s1.settled[i] == s.settled[i];
        }
      }
    }
    assert QueueIsSuffix(s1) by {
      forall j | 0 <= j < |s1.queue|
        ensures s1.queue[j] == ItemFor(s1.transactions[|s1.started| + j])
      {
        assert |s1.started| + j != k;
      }
    }
  }

  // ----- runs -----

  /** What can happen to the relayer: a caller enqueues, or the chain
      completes the in-flight item with the given answers. */
  datatype Event = Submit(playerAddress: string, action: string) | Complete(replies: Replies)

  function Step(s: Relayer, config: Config, ev: Event): Relayer
  {
    match ev
    case Submit(p, a) => Enqueue(s, p, a)
    case Complete(rs) => Finish(s, config, rs)
  }

  /** The state after a sequence of events from the initial state. */
  function Run(config: Config, events: seq<Event>): Relayer
  {
    if |events| == 0 then Init()
    else Step(Run(config, events[..|events| - 1]), config, events[|events| - 1])
  }

  lemma StepValid(s: Relayer, config: Config, ev: Event)
    requires Valid(s)
    ensures Valid(Step(s, config, ev))
  {
    match ev
    case Submit(p, a) => EnqueueValid(s, p, a);
    case Complete(rs) => FinishValid(s, config, rs);
  }

  /** Every reachable state satisfies the invariants: ids 1..n in enqueue
      order, FIFO starts, single flight, settle-once, records that mirror the
      settlements, and a consecutive nonce log. */
  lemma {:induction false} RunValid(config: Config, events: seq<Event>)
    ensures Valid(Run(config, events))
  {
    if |events| == 0 {
      InitValid();
    } else {
      RunValid(config, events[..|events| - 1]);
      StepValid(Run(config, events[..|events| - 1]), config, events[|events| - 1]);
    }
  }

  // ----- how records move -----

  /** A record either stays as it is or moves out of pending, keeping its id,
      player and action. */
  predicate Advances(t: Transaction, t': Transaction)
  {
    t' == t
    || (&& t.status == Pending && t'.status != Pending
        && t'.id == t.id && t'.playerAddress == t.playerAddress && t'.action == t.action)
  }

  /** Nothing is removed from the history or the logs, and every existing
      record only advances. */
  predicate Progress(s: Relayer, s': Relayer)
  {
    && |s.transactions| <= |s'.transactions|
    && (forall k :: 0 <= k < |s.transactions| ==> Advances(s.transactions[k], s'.transactions[k]))
    && s.started <= s'.started
    && s.settled <= s'.settled
    && s.nonceLog <= s'.nonceLog
    && s.sent <= s'.sent
  }

  lemma StepProgress(s: Relayer, config: Config, ev: Event)
    requires Valid(s)
    ensures Progress(s, Step(s, config, ev))
  {
    var s' := Step(s, config, ev);
    match ev
    case Submit(p, a) =>
      forall k | 0 <= k < |s.transactions| ensures s'.transactions[k] == s.transactions[k] {
        assert s'.transactions[..|s.transactions|][k] == s'.transactions[k];
      }
    case Complete(rs) =>
      if s.current.Some? {
        var e := Execute(config, s.currentNonce, s.current.value, rs);
        SettleRecords(s, e);
        assert s.transactions[|s.settled|].status == Pending;
      }
  }

  lemma ProgressTransitive(s1: Relayer, s2: Relayer, s3: Relayer)
    requires Progress(s1, s2) && Progress(s2, s3)
    ensures Progress(s1, s3)
  {
    forall k | 0 <= k < |s1.transactions|
      ensures Advances(s1.transactions[k], s3.transactions[k])
    {
      assert Advances(s1.transactions[k], s2.transactions[k]);
      assert Advances(s2.transactions[k], s3.transactions[k]);
    }
  }

  /** Over any run, each record only ever moves pending -> completed or
      pending -> failed, and the logs only grow. */
  lemma {:induction false} RunProgress(config: Config, events: seq<Event>, n: nat)
    requires n <= |events|
    ensures Progress(Run(config, events[..n]), Run(config, events))
    decreases |events| - n
  {
    if n == |events| {
      assert events[..n] == events;
    } else {
      var m := |events| - 1;
      var prefix := events[..m];
      assert prefix[..n] == events[..n];
      var before := Run(config, events[..n]);
      var mid := Run(config, prefix);
      assert Run(config, events) == Step(mid, config, events[m]);
      RunProgress(config, prefix, n);
      RunValid(config, prefix);
      StepProgress(mid, config, events[m]);
      ProgressTransitive(before, mid, Run(config, events));
    }
  }

  // ----- consequences for callers -----

  /** The promise of `id` has settled, or `id` is the item in flight. */
  predicate SettledOrInFlight(s: Relayer, id: int)
  {
    (exists i :: 0 <= i < |s.settled| && s.settled[i].id == id)
    || (s.current.Some? && s.current.value.id == id)
  }

  /** Every promise settles at most once, and every started item other than
      the one in flight has settled. */
  lemma SettlesExactlyOnce(s: Relayer)
    requires Valid(s)
    ensures forall i, j :: 0 <= i < j < |s.settled| ==> s.settled[i].id != s.settled[j].id
    ensures forall k :: 0 <= k < |s.started| ==> SettledOrInFlight(s, s.started[k])
  {
    forall k | 0 <= k < |s.started|
      ensures SettledOrInFlight(s, s.started[k])
    {
      if k < |s.settled| {
        assert s.settled[k].id == s.started[k];
      } else {
        assert s.current.value == ItemFor(s.transactions[k]);
      }
    }
  }

  /** Two requests against a chain that accepts both: ids 1 and 2 in call
      order, both completed, the second nonce one above the adopted first,
      and the count the chain reports for the second is never asked for. */
  lemma TwoRequestsComplete()
    ensures var config := Config("key", "https://rpc", "0xC0");
      var r1 := Replies(Reply(PendingCount(5), Accepted("0x01")), Reply(PendingCount(5), Accepted("0x01")));
      var r2 := Replies(Reply(PendingCount(9), Accepted("0x02")), Reply(PendingCount(9), Accepted("0x02")));
      var s := Finish(Finish(Enqueue(Enqueue(Init(), "0xAAA", START_GAME), "0xAAA", BREAK_BRICK), config, r1), config, r2);
      && s.transactions == [
           Transaction(1, "0xAAA", START_GAME, Completed, Some("0x01"), None),
           Transaction(2, "0xAAA", BREAK_BRICK, Completed, Some("0x02"), None)]
      && s.sent == [5, 6]
      && s.settled == [Settlement(1, Success("0x01")), Settlement(2, Success("0x02"))]
      && !s.isProcessing && s.queue == []
  {
    var config := Config("key", "https://rpc", "0xC0");
    var r1 := Replies(Reply(PendingCount(5), Accepted("0x01")), Reply(PendingCount(5), Accepted("0x01")));
    var r2 := Replies(Reply(PendingCount(9), Accepted("0x02")), Reply(PendingCount(9), Accepted("0x02")));
    var t1 := NewRecord(1, "0xAAA", START_GAME);
    var t2 := NewRecord(2, "0xAAA", BREAK_BRICK);
    var w1 := WorkItem("0xAAA", START_GAME, 1);
    var w2 := WorkItem("0xAAA", BREAK_BRICK, 2);
    var s1 := Enqueue(Init(), "0xAAA", START_GAME);
    assert s1 == Relayer([t1], [], true, Some(w1), None, [1], [], [], []);
    var s2 := Enqueue(s1, "0xAAA", BREAK_BRICK);
    assert s2 == Relayer([t1, t2], [w2], true, Some(w1), None, [1], [], [], []);
    var e1 := Execute(config, None, w1, r1);
    assert e1 == Execution(Some(5), [Draw(5, true)], [5], 0, Success("0x01"));
    var c1 := t1.(status := Completed, txHash := Some("0x01"));
    assert UpdateTransaction([t1, t2], 1, PatchFor(Success("0x01"))) == [c1, t2];
    var s3 := Finish(s2, config, r1);
    assert s3 == Relayer([c1, t2], [], true, Some(w2), Some(5), [1, 2],
                         [Settlement(1, Success("0x01"))], [Draw(5, true)], [5]);
    var e2 := Execute(config, Some(5), w2, r2);
    assert e2 == Execution(Some(6), [Draw(6, false)], [6], 0, Success("0x02"));
    var c2 := t2.(status := Completed, txHash := Some("0x02"));
    assert UpdateTransaction([c1, t2], 2, PatchFor(Success("0x02"))) == [c1, c2];
  }

  /** With any part of the configuration missing, a request fails with the
      configuration message and nothing is drawn or sent. */
  lemma MissingConfigFails(config: Config, playerAddress: string, action: string, replies: Replies)
    requires !config.Complete()
    ensures var s := Finish(Enqueue(Init(), playerAddress, action), config, replies);
      && s.transactions == [Transaction(1, playerAddress, action, Failed, None, Some(CONFIG_MISSING))]
      && s.settled == [Settlement(1, Failure(CONFIG_MISSING))]
      && s.sent == [] && s.nonceLog == [] && s.currentNonce.None?
  {
  }
}

=== FILE: shapes.dfy ===
/** The moving parts of the game (game_utils/drawBall.ts, drawPaddle.ts,
    powerUps.ts): balls, the paddle, and the kinds of power-up. Coordinates
    are JavaScript numbers, modelled as reals. */
module Shapes {

  datatype Ball = Ball(x: real, y: real, dx: real, dy: real, radius: real)

  datatype Paddle = Paddle(width: real, height: real, x: real, y: real, dx: real)

  datatype PowerUpKind = MultiBall | WidePaddle
}

=== FILE: text.dfy ===
/** String helpers for the relayer's message matching. */
module Text {

  /** `sub` occurs in `s` at position `i`. */
  predicate OccursAt(s: string, sub: string, i: nat)
  {
    i + |sub| <= |s| && s[i..i + |sub|] == sub
  }

  /** JavaScript's `s.includes(sub)`: `sub` occurs somewhere in `s`. */
  predicate Contains(s: string, sub: string)
    decreases |s|
  {
    if |sub| > |s| then false
    else s[..|sub|] == sub || (|s| > 0 && Contains(s[1..], sub))
  }

  /** `Contains` agrees with the positional definition, in both directions. */
  lemma {:induction false} ContainsIffOccurs(s: string, sub: string)
    ensures Contains(s, sub) <==> exists i: nat :: OccursAt(s, sub, i)
    decreases |s|
  {
    if |sub| > |s| {
      forall i: nat ensures !OccursAt(s, sub, i) { }
    } else if s[..|sub|] == sub {
      assert OccursAt(s, sub, 0);
    } else {
      ContainsIffOccurs(s[1..], sub);
      if Contains(s, sub) {
        var i: nat :| OccursAt(s[1..], sub, i);
        assert s[1..][i..i + |sub|] == s[i + 1..i + 1 + |sub|];
        assert OccursAt(s, sub, i + 1);
      } else {
        forall i: nat | OccursAt(s, sub, i) ensures false {
          if i != 0 {
            assert s[1..][i - 1..i - 1 + |sub|] == s[i..i + |sub|];
            assert OccursAt(s[1..], sub, i - 1);
          }
        }
      }
    }
  }
}

=== FILE: transaction_view.dfy ===
/** The pure part of the history view in components/TransactionList.tsx:
    keep `breakBrick` records, collapse records sharing an id, sort newest
    first, count the statistics, and pick the status label. */
module TransactionView {
  import opened Wrappers
  import opened Records

  // ----- filter -----

  /** `filter(tx => tx.action === "breakBrick")`. */
  function BreakBrickOnly(txs: seq<Transaction>): (r: seq<Transaction>)
    ensures |r| <= |txs|
    ensures forall t :: t in r <==> t in txs && t.action == BREAK_BRICK
  {
    if |txs| == 0 then []
    else
      var rest := BreakBrickOnly(txs[1..]);
      assert forall t :: t in txs <==> t == txs[0] || t in txs[1..];
      if txs[0].action == BREAK_BRICK then [txs[0]] + rest else rest
  }

  /** The filter keeps the caller's order: it maps concatenation to
      concatenation and keeps or drops a single record by its action. */
  lemma {:induction false} BreakBrickOnlyKeepsOrder(a: seq<Transaction>, b: seq<Transaction>)
    ensures BreakBrickOnly(a + b) == BreakBrickOnly(a) + BreakBrickOnly(b)
    ensures |a| == 1 ==> BreakBrickOnly(a) == if a[0].action == BREAK_BRICK then a else []
    decreases |a|
  {
    if |a| == 0 {
      assert a + b == b;
    } else {
      assert (a + b)[1..] == a[1..] + b;
      BreakBrickOnlyKeepsOrder(a[1..], b);
      if |a| == 1 {
        assert a[1..] == [];
      }
    }
  }

  // ----- reduce -----

  function Ids(txs: seq<Transaction>): set<int>
  {
    set t | t in txs :: t.id
  }

  /** `acc.filter(t => t.id !== id)`. */
  function WithoutId(acc: seq<Transaction>, id: int): (r: seq<Transaction>)
    ensures forall t :: t in r <==> t in acc && t.id != id
    ensures UniqueIds(acc) ==> UniqueIds(r)
  {
    if |acc| == 0 then []
    else
      var rest := WithoutId(acc[1..], id);
      assert forall t :: t in acc <==> t == acc[0] || t in acc[1..];
      if acc[0].id != id then
        assert forall k :: 0 < k < |acc| ==> acc[k] in acc[1..];
        [acc[0]] + rest
      else rest
  }

  /** The reducer's body: a record with a hash replaces any entry with its id
      and goes to the end; one without a hash is added only if its id is new. */
  function DedupStep(acc: seq<Transaction>, tx: Transaction): (r: seq<Transaction>)
    ensures HasHash(tx) ==> |r| > 0 && r[|r| - 1] == tx
    ensures HasHash(tx) ==> forall t :: t in r <==> (t in acc && t.id != tx.id) || t == tx
    ensures !HasHash(tx) && tx.id in Ids(acc) ==> r == acc
    ensures !HasHash(tx) && tx.id !in Ids(acc) ==> r == acc + [tx]
    ensures UniqueIds(acc) ==> UniqueIds(r)
    ensures Ids(r) == Ids(acc) + {tx.id}
  {
    if HasHash(tx) then
      var w := WithoutId(acc, tx.id);
      IdsAppend(w, tx);
      assert Ids(w) == Ids(acc) - {tx.id};
      w + [tx]
    else if exists t :: t in acc && t.id == tx.id then acc
    else
      IdsAppend(acc, tx);
      acc + [tx]
  }

  lemma IdsAppend(acc: seq<Transaction>, tx: Transaction)
    requires tx.id !in Ids(acc)
    ensures UniqueIds(acc) ==> UniqueIds(acc + [tx])
    ensures Ids(acc + [tx]) == Ids(acc) + {tx.id}
  {
    var r := acc + [tx];
    assert forall t :: t in r <==> t in acc || t == tx;
    if UniqueIds(acc) {
      forall i, j | 0 <= i < j < |r| ensures r[i].id != r[j].id {
        if j == |acc| {
          assert r[i] in acc;
        } else {
          assert r[i] == acc[i] && r[j] == acc[j];
        }
      }
    }
  }

  /** `reduce(DedupStep, [])`, folding from the left. */
  function Dedup(txs: seq<Transaction>): (r: seq<Transaction>)
    ensures UniqueIds(r)
  {
    if |txs| == 0 then []
    else DedupStep(Dedup(txs[..|txs| - 1]), txs[|txs| - 1])
  }

  // ----- an independent description of what the reduction keeps -----

  /** The first record with the given id, if any. */
  function FirstWithId(txs: seq<Transaction>, id: int): Option<Transaction>
  {
    if |txs| == 0 then None
    else if txs[0].id == id then Some(txs[0])
    else FirstWithId(txs[1..], id)
  }

  /** The last record with the given id that carries a hash, if any. */
  function LastHashed(txs: seq<Transaction>, id: int): Option<Transaction>
  {
    if |txs| == 0 then None
    else if txs[|txs| - 1].id == id && HasHash(txs[|txs| - 1]) then Some(txs[|txs| - 1])
    else LastHashed(txs[..|txs| - 1], id)
  }

  /** The entry the view should show for an id: the latest hashed record,
      or the first record when none has a hash. */
  function Pick(txs: seq<Transaction>, id: int): Option<Transaction>
  {
    if LastHashed(txs, id).Some? then LastHashed(txs, id) else FirstWithId(txs, id)
  }

  lemma {:induction false} FirstWithIdSnoc(txs: seq<Transaction>, x: Transaction, id: int)
    ensures FirstWithId(txs + [x], id) ==
      if FirstWithId(txs, id).Some? then FirstWithId(txs, id)
      else if x.id == id then Some(x) else None
    decreases |txs|
  {
    if |txs| == 0 {
      assert txs + [x] == [x];
    } else {
      assert (txs + [x])[1..] == txs[1..] + [x];
      FirstWithIdSnoc(txs[1..], x, id);
    }
  }

  lemma {:induction false} FirstWithIdPresent(txs: seq<Transaction>, id: int)
    ensures FirstWithId(txs, id).Some? <==> id in Ids(txs)
    ensures FirstWithId(txs, id).Some? ==> FirstWithId(txs, id).value in txs
    decreases |txs|
  {
    if |txs| > 0 {
      FirstWithIdPresent(txs[1..], id);
      assert forall t :: t in txs <==> t == txs[0] || t in txs[1..];
      assert Ids(txs) == {txs[0].id} + Ids(txs[1..]);
    }
  }

  lemma {:induction false} LastHashedIn(txs: seq<Transaction>, id: int)
    ensures LastHashed(txs, id).Some? ==>
      LastHashed(txs, id).value in txs && LastHashed(txs, id).value.id == id
    decreases |txs|
  {
    if |txs| > 0 {
      LastHashedIn(txs[..|txs| - 1], id);
    }
  }

  /** The reduction keeps one entry per id, exactly the ids of its input, and
      for each id exactly the entry `Pick` describes. */
  lemma {:induction false} DedupMeetsPick(txs: seq<Transaction>)
    ensures UniqueIds(Dedup(txs))
    ensures Ids(Dedup(txs)) == Ids(txs)
    ensures forall t :: t in Dedup(txs) ==> Pick(txs, t.id) == Some(t)
    decreases |txs|
  {
    if |txs| > 0 {
      var init := txs[..|txs| - 1];
      var x := txs[|txs| - 1];
      assert txs == init + [x];
      DedupMeetsPick(init);
      var acc := Dedup(init);
      assert Ids(txs) == Ids(init) + {x.id} by {
        assert forall t :: t in txs <==> t in init || t == x;
      }
      forall t | t in Dedup(txs) ensures Pick(txs, t.id) == Some(t) {
        FirstWithIdSnoc(init, x, t.id);
        FirstWithIdPresent(init, t.id);
        if t.id != x.id {
          assert t in acc;
        } else if HasHash(x) {
          assert t == x;
        } else if x.id in Ids(acc) {
          assert t in acc;
          assert LastHashed(txs, t.id) == LastHashed(init, t.id);
        } else {
          assert t == x;
          assert LastHashed(init, t.id).None? by {
            LastHashedIn(init, t.id);
          }
        }
      }
    }
  }

  /** Every kept entry is one of the input records. */
  lemma {:induction false} DedupKeepsInputs(txs: seq<Transaction>)
    ensures forall t :: t in Dedup(txs) ==> t in txs
  {
    DedupMeetsPick(txs);
    forall t | t in Dedup(txs) ensures t in txs {
      LastHashedIn(txs, t.id);
      FirstWithIdPresent(txs, t.id);
    }
  }

  // ----- sort -----

  /** Newest first: ids never increase along the list. */
  predicate NewestFirst(txs: seq<Transaction>)
  {
    forall i, j :: 0 <= i < j < |txs| ==> txs[i].id >= txs[j].id
  }

  predicate StrictlyNewestFirst(txs: seq<Transaction>)
  {
    forall i, j :: 0 <= i < j < |txs| ==> txs[i].id > txs[j].id
  }

  /** `a` may precede every entry of `rest` in a newest-first list. */
  predicate NotOlderThanAll(a: Transaction, rest: seq<Transaction>)
  {
    forall k :: 0 <= k < |rest| ==> a.id >= rest[k].id
  }

  predicate NewerThanAll(a: Transaction, rest: seq<Transaction>)
  {
    forall k :: 0 <= k < |rest| ==> a.id > rest[k].id
  }

  lemma NewestFirstCons(a: Transaction, rest: seq<Transaction>)
    ensures NewestFirst([a] + rest) <==> NewestFirst(rest) && NotOlderThanAll(a, rest)
  {
    var s := [a] + rest;
    assert forall k :: 0 <= k < |rest| ==> s[k + 1] == rest[k];
    if NewestFirst(rest) && NotOlderThanAll(a, rest) {
      forall i, j | 0 <= i < j < |s| ensures s[i].id >= s[j].id {
        if i > 0 {
          assert s[i] == rest[i - 1] && s[j] == rest[j - 1];
        }
      }
    }
    if NewestFirst(s) {
      forall i, j | 0 <= i < j < |rest| ensures rest[i].id >= rest[j].id {
        assert s[i + 1].id >= s[j + 1].id;
      }
      forall k | 0 <= k < |rest| ensures a.id >= rest[k].id {
        assert s[0].id >= s[k + 1].id;
      }
    }
  }

  lemma StrictlyNewestFirstCons(a: Transaction, rest: seq<Transaction>)
    ensures StrictlyNewestFirst([a] + rest) <==> StrictlyNewestFirst(rest) && NewerThanAll(a, rest)
  {
    var s := [a] + rest;
    assert forall k :: 0 <= k < |rest| ==> s[k + 1] == rest[k];
    if StrictlyNewestFirst(rest) && NewerThanAll(a, rest) {
      forall i, j | 0 <= i < j < |s| ensures s[i].id > s[j].id {
        if i > 0 {
          assert s[i] == rest[i - 1] && s[j] == rest[j - 1];
        }
      }
    }
    if StrictlyNewestFirst(s) {
      forall i, j | 0 <= i < j < |rest| ensures rest[i].id > rest[j].id {
        assert s[i + 1].id > s[j + 1].id;
      }
      forall k | 0 <= k < |rest| ensures a.id > rest[k].id {
        assert s[0].id > s[k + 1].id;
      }
    }
  }

  /** Insert `x` in front of the first entry with a smaller id. */
  function Insert(x: Transaction, s: seq<Transaction>): (r: seq<Transaction>)
    ensures multiset(r) == multiset(s) + multiset{x}
    ensures forall t :: t in r <==> t in s || t == x
  {
    if |s| == 0 then [x]
    else if s[0].id < x.id then [x] + s
    else
      assert s == [s[0]] + s[1..];
      [s[0]] + Insert(x, s[1..])
  }

  lemma {:induction false} InsertKeepsOrder(x: Transaction, s: seq<Transaction>)
    requires NewestFirst(s)
    ensures NewestFirst(Insert(x, s))
    ensures StrictlyNewestFirst(s) && x.id !in Ids(s) ==> StrictlyNewestFirst(Insert(x, s))
    decreases |s|
  {
    if |s| == 0 {
    } else if s[0].id < x.id {
      NewestFirstCons(x, s);
      StrictlyNewestFirstCons(x, s);
      if StrictlyNewestFirst(s) && x.id !in Ids(s) {
        assert s[0] in s;
        assert NewerThanAll(x, s);
      }
    } else {
      assert s == [s[0]] + s[1..];
      NewestFirstCons(s[0], s[1..]);
      StrictlyNewestFirstCons(s[0], s[1..]);
      InsertKeepsOrder(x, s[1..]);
      var rest := Insert(x, s[1..]);
      HeadStaysAhead(x, s);
      NewestFirstCons(s[0], rest);
      StrictlyNewestFirstCons(s[0], rest);
    }
  }

  /** An entry no older than `x` stays ahead of everything `x` is inserted among. */
  lemma HeadStaysAhead(x: Transaction, s: seq<Transaction>)
    requires |s| > 0 && x.id <= s[0].id && NewestFirst(s)
    ensures NotOlderThanAll(s[0], Insert(x, s[1..]))
    ensures StrictlyNewestFirst(s) && x.id !in Ids(s) ==> NewerThanAll(s[0], Insert(x, s[1..]))
  {
    var rest := Insert(x, s[1..]);
    assert forall k :: 0 <= k < |rest| ==> rest[k] in s[1..] || rest[k] == x;
    forall k | 0 <= k < |rest| ensures s[0].id >= rest[k].id {
      if rest[k] != x {
        var m :| 0 <= m < |s[1..]| && s[1..][m] == rest[k];
        assert s[m + 1] == rest[k];
      }
    }
    if StrictlyNewestFirst(s) && x.id !in Ids(s) {
      assert s[0] in s;
      forall k | 0 <= k < |rest| ensures s[0].id > rest[k].id {
        if rest[k] != x {
          var m :| 0 <= m < |s[1..]| && s[1..][m] == rest[k];
          assert s[m + 1] == rest[k];
        }
      }
    }
  }

  /** `sort((a, b) => b.id - a.id)` as an insertion sort. */
  function SortNewestFirst(s: seq<Transaction>): (r: seq<Transaction>)
    ensures multiset(r) == multiset(s)
  {
    if |s| == 0 then []
    else
      assert s == [s[0]] + s[1..];
      Insert(s[0], SortNewestFirst(s[1..]))
  }

  /** The sort returns a permutation ordered newest first, strictly so when
      the ids are distinct. */
  lemma {:induction false} SortIsOrdered(s: seq<Transaction>)
    ensures NewestFirst(SortNewestFirst(s))
    ensures UniqueIds(s) ==> StrictlyNewestFirst(SortNewestFirst(s))
    decreases |s|
  {
    if |s| > 0 {
      var rest := SortNewestFirst(s[1..]);
      SortIsOrdered(s[1..]);
      HeadIdFresh(s, rest);
      InsertKeepsOrder(s[0], rest);
    }
  }

  lemma HeadIdFresh(s: seq<Transaction>, rest: seq<Transaction>)
    requires |s| > 0 && multiset(rest) == multiset(s[1..])
    ensures UniqueIds(s) ==> UniqueIds(s[1..]) && s[0].id !in Ids(rest)
  {
    if UniqueIds(s) {
      forall t | t in rest ensures t.id != s[0].id {
        assert t in multiset(rest);
        assert t in multiset(s[1..]);
        var k :| 0 <= k < |s[1..]| && s[1..][k] == t;
        assert s[k + 1] == t;
      }
    }
  }

  lemma MultisetSameMembers(a: seq<Transaction>, b: seq<Transaction>)
    requires multiset(a) == multiset(b)
    ensures forall t :: t in a <==> t in b
  {
    forall t ensures t in a <==> t in b {
      assert t in a <==> t in multiset(a);
      assert t in b <==> t in multiset(b);
    }
  }

  /** The whole pipeline of `fetchTransactions`. */
  function View(txs: seq<Transaction>): seq<Transaction>
  {
    SortNewestFirst(Dedup(BreakBrickOnly(txs)))
  }

  /** The view shows each `breakBrick` id exactly once, newest first, using
      the entry `Pick` describes, and shows nothing else. */
  lemma ViewSpec(txs: seq<Transaction>)
    ensures var v := View(txs);
      && StrictlyNewestFirst(v)
      && Ids(v) == Ids(BreakBrickOnly(txs))
      && (forall t :: t in v ==> t in txs && t.action == BREAK_BRICK)
      && (forall t :: t in v ==> Pick(BreakBrickOnly(txs), t.id) == Some(t))
  {
    var b := BreakBrickOnly(txs);
    var d := Dedup(b);
    var v := View(txs);
    DedupMeetsPick(b);
    DedupKeepsInputs(b);
    SortIsOrdered(d);
    MultisetSameMembers(v, d);
    assert Ids(v) == Ids(d);
  }

  // ----- statistics and labels -----

  datatype Stats = Stats(pending: nat, completed: nat, failed: nat, total: nat)

  /** What a statistic counts an entry under: no hash, a hash and a given
      status, or just a given status. */
  datatype Criterion = Unhashed | HashedAs(hashedStatus: Status) | InStatus(status: Status)

  predicate Meets(t: Transaction, c: Criterion)
  {
    match c
    case Unhashed => !HasHash(t)
    case HashedAs(st) => HasHash(t) && t.status == st
    case InStatus(st) => t.status == st
  }

  /** `txs.filter(...).length`, one entry at a time. */
  function CountWhere(txs: seq<Transaction>, c: Criterion): nat
  {
    if |txs| == 0 then 0 else (if Meets(txs[0], c) then 1 else 0) + CountWhere(txs[1..], c)
  }

  /** The positions of the entries that meet `c`: the reference a count is
      measured against. */
  function Positions(txs: seq<Transaction>, c: Criterion): set<nat>
  {
    set i: nat | i < |txs| && Meets(txs[i], c)
  }

  lemma {:induction false} CountWhereSnoc(txs: seq<Transaction>, x: Transaction, c: Criterion)
    ensures CountWhere(txs + [x], c) == CountWhere(txs, c) + (if Meets(x, c) then 1 else 0)
  {
    if |txs| == 0 {
      assert txs + [x] == [x] && [x][1..] == [];
    } else {
      assert (txs + [x])[1..] == txs[1..] + [x];
      CountWhereSnoc(txs[1..], x, c);
    }
  }

  /** Counting entry by entry gives the number of positions that qualify. */
  lemma {:induction false} CountWhereIsPositions(txs: seq<Transaction>, c: Criterion)
    ensures CountWhere(txs, c) == |Positions(txs, c)|
    decreases |txs|
  {
    if |txs| > 0 {
      var init := txs[..|txs| - 1];
      var x := txs[|txs| - 1];
      assert txs == init + [x];
      CountWhereSnoc(init, x, c);
      CountWhereIsPositions(init, c);
      if Meets(x, c) {
        assert Positions(txs, c) == Positions(init, c) + {|init|};
        assert |init| !in Positions(init, c);
      } else {
        assert Positions(txs, c) == Positions(init, c);
      }
    }
  }

  function CountNoHash(txs: seq<Transaction>): nat
  {
    CountWhere(txs, Unhashed)
  }

  function CountHashed(txs: seq<Transaction>, st: Status): nat
  {
    CountWhere(txs, HashedAs(st))
  }

  /** Every record is either unhashed or hashed with exactly one status. */
  lemma {:induction false} CountsPartition(txs: seq<Transaction>)
    ensures CountNoHash(txs) + CountHashed(txs, Completed) + CountHashed(txs, Failed)
            + CountHashed(txs, Pending) == |txs|
  {
    if |txs| > 0 {
      CountsPartition(txs[1..]);
    }
  }

  /** The `stats` memo: unhashed entries count as pending, hashed ones by status. */
  function ComputeStats(txs: seq<Transaction>): (r: Stats)
    ensures r.total == |txs|
    ensures r.pending + r.completed + r.failed <= r.total
    ensures r.pending + r.completed + r.failed == r.total <==> CountHashed(txs, Pending) == 0
    ensures r.pending == |set i: nat | i < |txs| && !HasHash(txs[i])|
    ensures r.completed == |set i: nat | i < |txs| && HasHash(txs[i]) && txs[i].status == Completed|
    ensures r.failed == |set i: nat | i < |txs| && HasHash(txs[i]) && txs[i].status == Failed|
  {
    CountsPartition(txs);
    CountWhereIsPositions(txs, Unhashed);
    CountWhereIsPositions(txs, HashedAs(Completed));
    CountWhereIsPositions(txs, HashedAs(Failed));
    assert Positions(txs, Unhashed) == set i: nat | i < |txs| && !HasHash(txs[i]);
    assert Positions(txs, HashedAs(Completed)) ==
      set i: nat | i < |txs| && HasHash(txs[i]) && txs[i].status == Completed;
    assert Positions(txs, HashedAs(Failed)) ==
      set i: nat | i < |txs| && HasHash(txs[i]) && txs[i].status == Failed;
    Stats(CountNoHash(txs), CountHashed(txs, Completed), CountHashed(txs, Failed), |txs|)
  }

  function StatusName(st: Status): string
  {
    match st
    case Pending => "pending"
    case Completed => "completed"
    case Failed => "failed"
  }

  /** `!tx.txHash ? "pending" : tx.status`. */
  function StatusLabel(t: Transaction): (r: string)
    ensures r == "pending" <==> !HasHash(t) || t.status == Pending
    ensures HasHash(t) ==> r == StatusName(t.status)
  {
    if !HasHash(t) then "pending" else StatusName(t.status)
  }
}

=== FILE: wrappers.dfy ===
/** Optional values: JavaScript's `undefined` / `null` fields and results. */
module Wrappers {

  datatype Option<+T> = None | Some(value: T) {

    /** The wrapped value, or `default` when there is none. */
    function GetOr(default: T): (r: T)
      ensures Some? ==> r == value
      ensures None? ==> r == default
    {
      match this
      case Some(v) => v
      case None => default
    }
  }
}
